=== FILE: README.md ===
# Livestock accounting — a Dafny model

This project models the behavioural core of an Odoo livestock-accounting module. It covers four parts:

- **The cost-allocation engine.** A draft allocation batch chooses supplier-invoice lines from a pool of lines that nobody has allocated or reserved. It weighs the batch's animals by one method: equal, by current weight or by age. It splits each line's subtotal over the animals eligible for the line's category and writes one cost-history row per (line, animal). Then the batch is done.
- **The bulk movement engine.** A draft movement of one of four types (weight, health, retirement, reclassification) is applied to a list of animals. Each animal gets the type's side effect and one from/to snapshot row. The movement becomes applied.
- **The animal's derived metrics.** These are current weight, accumulated cost, cost per kilogram and age in days. The module also covers code assignment on creation and the retirement-reason constraint.
- **The weight ledger.** A weight must be positive.

Records are immutable datatypes and operations are pure functions. Every refusal is a `Result`/`Outcome` error value instead of an exception. Money and weights are `real`, so "shares add up to the subtotal" holds exactly. Dates are integers and "today" is a parameter.

Modules:

- `Common`: Option, Result, Outcome, and Python-style truthiness of optional text.
- `Records`: field-only record shapes, namely the category tag, the allocation method, health kinds, invoice lines, cost rows and health events.
- `WeightControl`: the weight ledger and its checks.
- `Cattle`: animals, code assignment, the retirement-reason constraint and the derived metrics.
- `Movement`: bulk movements and their laws.
- `CostAllocation`: the allocation engine, both corrected and as written.
- `AllocationLaws`: laws of the split.
- `AllocationPool`: the candidate pool, syncing and the selection wizard.
- `AllocationFinding`: the unguarded per-line divisor.

Four behaviours of the code worth knowing, which the model follows:

- A weight movement carries one `weight` for all its animals. The code has no per-animal detail lines, so it has no duplicate-animal failure either.
- The animals of a movement are not filtered to the inventory state when it is applied. That filter exists only as a selection domain in the form.
- The retirement-reason constraint runs one way only. A retired or sold animal needs a reason, but an animal in inventory may keep one.
- An animal's category is a single abstract tag (`Category`), and the model only ever compares categories for equality. The animal record (livestock_accounting/models/livestock_cattle.py:13) declares only a reference field `category_id`. The engines read an attribute `category` that this record does not declare, and they compare it with a selection value. As written, that read raises an attribute error in two places. The movement snapshot reads it for every animal of every movement (livestock_accounting/models/livestock_movement.py:118). The allocation split reads it for every line tagged with a category (livestock_accounting/wizard/livestock_cost_allocation.py:153). The model assumes that the attribute resolves to the animal's category, which is what both engines evidently intend.

## Model

| member | source | states |
|---|---|---|
| WeightControl.CheckWeightPositive | livestock_accounting/models/livestock_weight_control.py:15-19 | the check passes exactly when every record of the batch weighs more than 0; when it fails, it names the first record whose weight is 0 or less |
| WeightControl.CheckRequired | livestock_accounting/models/livestock_weight_control.py:10-12 | the required-field check passes exactly when every record has a date, and a failure names a record without one |
| WeightControl.Fill | livestock_accounting/models/livestock_weight_control.py:11 | a reading whose date is left out takes the field default, today; a given date is kept, so a stored record lacks a date exactly when the call cleared it explicitly |
| WeightControl.Create | livestock_accounting/models/livestock_weight_control.py:10-19 | a batch is appended exactly when no record's date was explicitly cleared and every weight is above 0; left-out dates are stored as today; an accepted batch lands after the existing ledger and keeps it valid; a refusal names a record with a cleared date or, when all are dated, one with a weight of 0 or less |
| WeightControl.CheckSplits | livestock_accounting/models/livestock_weight_control.py:16-19 | the weight check is per record: it passes on a concatenation exactly when it passes on both parts |
| Cattle.CheckRetirementReason | livestock_accounting/models/livestock_cattle.py:91-95 | passes exactly when every retired or sold animal has a reason; a failure names a retired or sold animal without one |
| Cattle.AssignCodes | livestock_accounting/models/livestock_cattle.py:55-60 | records with their own code keep it; the i-th placeholder gets the sequence's number advanced by the placeholders before it, or stays a placeholder when the sequence is missing; the sequence advances by the number of placeholders |
| Cattle.CheckInclusionDate | livestock_accounting/models/livestock_cattle.py:15 | the required-field check passes exactly when every new animal has an inclusion date, and a failure names an animal without one |
| Cattle.Create | livestock_accounting/models/livestock_cattle.py:51-60 | creation succeeds exactly when every new animal is dated, the assigned codes are unique among themselves and against the registry, and every retired or sold animal has a reason. A success returns the registry followed by exactly the coded batch, together with the advanced sequence. Each refusal names its cause: a missing date names an undated animal, a duplicate code is reported exactly when the batch is dated but its codes collide, and a missing reason names an animal without one |
| Cattle.FreshCodesNeverCollide | livestock_accounting/models/livestock_cattle.py:55-60 | on a registry with unique codes whose issued numbers lie below the counter, creating placeholder-coded animals always succeeds and keeps the counter ahead |
| Cattle.LatestIndex | livestock_accounting/models/livestock_cattle.py:65 | the reading a descending sort by (date or today, id) puts first: no reading sorts after it, and every earlier reading sorts strictly before it |
| Cattle.CurrentWeight | livestock_accounting/models/livestock_cattle.py:62-66 | 0 for an animal without readings; otherwise the weight of one of its readings that no other reading of it sorts after, by (date or today, id) |
| Cattle.CurrentWeightSign | livestock_accounting/models/livestock_cattle.py:62-66 | on a valid ledger the current weight is never negative, and it is positive exactly when the animal has a reading |
| Cattle.AccumulatedCost | livestock_accounting/models/livestock_cattle.py:68-71 | an animal's accumulated cost is never negative when none of its own cost rows is negative |
| Cattle.AccumulatedCostAppend | livestock_accounting/models/livestock_cattle.py:68-71 | accumulated cost is additive over the cost history: appending rows adds their amounts for this animal |
| Cattle.AccumulatedCostOthers | livestock_accounting/models/livestock_cattle.py:68-71 | rows of other animals contribute nothing to an animal's accumulated cost |
| Cattle.AccumulatedCostOwnRow | livestock_accounting/models/livestock_cattle.py:68-71 | a single row of the animal contributes exactly its amount; with additivity and the other-animals law this pins the accumulated cost to the sum of the animal's own amounts |
| Cattle.CostPerKg | livestock_accounting/models/livestock_cattle.py:73-78 | with a non-zero weight, cost per kg times the weight gives back the accumulated cost; with weight 0 it is 0 |
| Cattle.AgeDays | livestock_accounting/models/livestock_cattle.py:80-84 | the inclusion date plus the age gives today; the age is 0 without an inclusion date |
| Movement.CheckRequiredByType | livestock_accounting/models/livestock_movement.py:86-97 | per type, the constraint passes exactly when a weight has weight > 0, a health record has a kind and a non-empty description, a retirement has a reason, and a reclassification has a new category; otherwise it fails with that type's error |
| Movement.Snapshot | livestock_accounting/models/livestock_movement.py:111-174 | a snapshot row carries the movement's id, date, type and notes; it takes "from" category and state from the animal before the change and "to" values after it; it holds the payload of the movement's own type and leaves the other types' fields empty |
| Movement.Step | livestock_accounting/models/livestock_movement.py:111-174 | one animal's step changes no other animal and no key of the herd. A reclassification of an animal already in the target category changes nothing. Every other step appends exactly the animal's snapshot row, taken before and after its change |
| Movement.ApplyToCattle | livestock_accounting/models/livestock_movement.py:108-177 | processing animals neither adds nor removes animals, and only appends to the movement history |
| Movement.Apply | livestock_accounting/models/livestock_movement.py:99-106 | an applied movement is refused, naming it; a draft without animals is refused; a draft with animals always succeeds, becomes applied, and its herd is exactly the result of processing its animals in order, so every per-type law below applies to it |
| Movement.UnlistedUnchanged | livestock_accounting/models/livestock_movement.py:108-111 | an animal the movement does not list is left unchanged |
| Movement.WeightMovementAppendsReadings | livestock_accounting/models/livestock_movement.py:122-131 | a weight movement appends exactly one reading per listed animal, in order, with the movement's date, weight and notes; animals and health events are unchanged; one snapshot per animal |
| Movement.HealthMovementAppendsEvents | livestock_accounting/models/livestock_movement.py:133-150 | a health movement appends exactly one health event per listed animal, copying kind, description, veterinarian and notes; animals and readings are unchanged; one snapshot per animal |
| Movement.RetirementRetiresListed | livestock_accounting/models/livestock_movement.py:152-165 | every listed animal becomes retired with the movement's reason, its notes falling back to the general notes; no other animal and no ledger changes; one snapshot per animal |
| Movement.ReclassificationSetsCategory | livestock_accounting/models/livestock_movement.py:167-171 | after a reclassification every listed animal has the new category and is otherwise unchanged; unlisted animals and the ledgers are untouched |
| Movement.MoversAreUnsettled | livestock_accounting/models/livestock_movement.py:167-169 | an animal is moved by a reclassification exactly when it is listed and not already in the target category |
| Movement.ReclassificationSkipsSettled | livestock_accounting/models/livestock_movement.py:167-174 | a reclassification writes snapshot rows exactly for the moved animals, in list order, and none for animals already in the category |
| Movement.SnapshotsBracketTheChange | livestock_accounting/models/livestock_movement.py:111-120 | every snapshot row takes category and state before the change as "from" and after it as "to", with the movement's id, date and type |
| Movement.SnapshotsCarryPayload | livestock_accounting/models/livestock_movement.py:111-165 | every snapshot row a movement writes carries the movement's id and notes. A weight row carries the weight; a health row carries kind, description and veterinarian; a retirement row carries the reason and the retirement notes, falling back to the general notes. The other types' fields stay empty |
| Movement.AppliedMovementKeepsConstraints | livestock_accounting/models/livestock_movement.py:122-165 | applying a saved movement keeps the weight ledger valid (dated, positive readings) and every animal's retirement reason valid |
| Movement.WeightMovementSetsCurrentWeight | livestock_accounting/models/livestock_movement.py:122-131 | after a weight movement dated no earlier than an animal's readings, the animal's current weight is the movement's weight |
| Movement.NewestReadingWins | livestock_accounting/models/livestock_cattle.py:62-66 | appending readings of one weight, one of which sorts after all the animal's earlier readings, makes that weight current |
| CostAllocation.Total | livestock_accounting/wizard/livestock_cost_allocation.py:53-57 | a batch with no selected candidate has total 0 |
| AllocationLaws.TotalAppend | livestock_accounting/wizard/livestock_cost_allocation.py:53-57 | the total counts each selected line once: a further candidate adds its line's subtotal exactly when it is selected and its line is not yet selected |
| CostAllocation.HistoryLines | livestock_accounting/wizard/livestock_cost_allocation.py:59-60 | a line id is allocated exactly when some cost-history row refers to it |
| AllocationLaws.HistoryLinesAppend | livestock_accounting/wizard/livestock_cost_allocation.py:59-60 | the allocated lines of a longer history are those of its parts: writing rows adds exactly their lines |
| CostAllocation.SelectedLines | livestock_accounting/wizard/livestock_cost_allocation.py:47-51 | the selected lines are distinct, each comes from a selected candidate, and every selected candidate's line is among them |
| CostAllocation.AlreadyAllocatedLines | livestock_accounting/wizard/livestock_cost_allocation.py:134-136 | a line is reported exactly when it is selected and some cost-history row refers to it |
| CostAllocation.Names | livestock_accounting/wizard/livestock_cost_allocation.py:138-141 | the error lists the display names of the reported lines, one per line and in their order, so a name shared by two lines appears twice |
| CostAllocation.Factor | livestock_accounting/wizard/livestock_cost_allocation.py:173-183 | equal gives 1; weight gives the current weight; age gives the age in days when it is at least 1, and exactly 1 when it is below 1 (a newborn or undated animal) |
| CostAllocation.Bases | livestock_accounting/wizard/livestock_cost_allocation.py:173-183 | one basis per animal of the batch, in order, with its id, its category and its factor under the batch's method |
| CostAllocation.Eligible | livestock_accounting/wizard/livestock_cost_allocation.py:153 | an animal is eligible for a line exactly when it is in the batch and either the line is untagged or the animal's category matches the tag; untagged lines concern all animals |
| AllocationLaws.EligibleIsSubMultiset | livestock_accounting/wizard/livestock_cost_allocation.py:153 | the eligible animals of a line are a sub-multiset of the batch: filtering keeps each animal at most as often as the batch lists it |
| AllocationLaws.EligibleOncePerAnimal | livestock_accounting/wizard/livestock_cost_allocation.py:153 | when the batch lists each animal once, so does every line's eligible list |
| CostAllocation.Precheck | livestock_accounting/wizard/livestock_cost_allocation.py:125-150 | the checks pass exactly when the batch is a draft with animals and at least one selected line, no selected line is in cost history, the total is above 0 and the factor sum is above 0. Each refusal is returned exactly when every earlier check passes and its own fails: no animals, no line, already done, an already-allocated line, a total ≤ 0, a factor sum ≤ 0 |
| CostAllocation.Allocate | livestock_accounting/wizard/livestock_cost_allocation.py:125-171 | a batch that fails the checks is refused with exactly the checks' error, and an already-allocated refusal names exactly the selected lines in cost history. A batch that passes them succeeds exactly when every selected line can be split (the corrected guard); otherwise it is refused as having no valid basis. A success is a done batch whose rows are the split of every selected line |
| CostAllocation.AllRowsAsWritten | livestock_accounting/wizard/livestock_cost_allocation.py:152-169 | the unguarded split succeeds exactly when no line with eligible animals has an eligible factor sum of 0; otherwise it divides by zero on such a line |
| CostAllocation.AllocateAsWritten | livestock_accounting/wizard/livestock_cost_allocation.py:125-171 | the allocation as written: a batch that fails the checks is refused with exactly the checks' error; one that passes them succeeds exactly when no selected line with eligible animals has an eligible factor sum of 0. A division by zero happens only on such a line |
| AllocationLaws.LineRowAt | livestock_accounting/wizard/livestock_cost_allocation.py:157-169 | the k-th row of a line goes to the k-th eligible animal, with that animal's share, the batch, its date, method and note |
| AllocationLaws.LineRowsScale | livestock_accounting/wizard/livestock_cost_allocation.py:156-158 | a line's shares add up to subtotal times eligible factor sum over the divisor |
| AllocationLaws.SharesSumToSubtotal | livestock_accounting/wizard/livestock_cost_allocation.py:156-158 | normalised by the eligible animals' own factor sum, a line's shares add up exactly to its subtotal |
| AllocationLaws.ShareWithinSubtotal | livestock_accounting/wizard/livestock_cost_allocation.py:156-158 | with non-negative factors and a positive eligible sum, every share lies between 0 and the subtotal |
| AllocationLaws.BasesNonNegative | livestock_accounting/wizard/livestock_cost_allocation.py:173-183 | on a valid weight ledger every method's factors are non-negative |
| AllocationLaws.EqualAndAgeAlwaysHaveBasis | livestock_accounting/wizard/livestock_cost_allocation.py:147-150 | with at least one animal, the equal and age methods always have a positive factor sum, overall and for every line |
| AllocationLaws.RowsForLine | livestock_accounting/wizard/livestock_cost_allocation.py:152-169 | among all rows of an allocation, those booked against one selected line are exactly that line's block |
| AllocationLaws.OneRowPerEligibleAnimal | livestock_accounting/wizard/livestock_cost_allocation.py:152-171 | after a successful allocation, each selected line has exactly one row per eligible animal, in order, carrying the batch id, date and method, and the rows add up to the line's subtotal |
| AllocationLaws.SharesWithinSubtotals | livestock_accounting/wizard/livestock_cost_allocation.py:156-158 | on a valid ledger every row of a successful allocation lies between 0 and its line's subtotal |
| AllocationLaws.RowsConserveCovered | livestock_accounting/wizard/livestock_cost_allocation.py:152-169 | an allocation's rows add up to the subtotals of the lines that concern some animal |
| AllocationLaws.AllocationDistributesTotal | livestock_accounting/wizard/livestock_cost_allocation.py:143-169 | when every selected line concerns an animal, the rows distribute exactly the total to allocate |
| AllocationLaws.SecondAllocationOfALineFails | livestock_accounting/wizard/livestock_cost_allocation.py:134-141 | once a line received rows, any later draft batch selecting it is refused as already allocated, and the error names it |
| AllocationLaws.SkippedLineStaysUnallocated | livestock_accounting/wizard/livestock_cost_allocation.py:153-155 | a line that concerns no animal gets no row and stays absent from cost history |
| AllocationPool.ReservedLineIds | livestock_accounting/wizard/livestock_cost_allocation.py:62-71 | a line id is reserved against a batch exactly when a draft batch selects it, and that draft has a different id or the batch is unsaved (id 0) |
| AllocationPool.Pool | livestock_accounting/wizard/livestock_cost_allocation.py:73-87 | a journal line is offered exactly when it is a posted supplier-invoice product line of the batch's company, not excluded from the invoice tab, and neither allocated nor reserved; distinct journal lines give distinct offered lines |
| AllocationPool.PreviousSelection | livestock_accounting/wizard/livestock_cost_allocation.py:93-97 | a remembered flag is true only when a candidate of that line was selected, and false for a line that was no candidate |
| AllocationPool.Sync | livestock_accounting/wizard/livestock_cost_allocation.py:89-108 | a done batch is untouched; a draft's candidates become exactly the available lines in journal order, none of which is allocated or reserved by another draft; nothing else of the batch changes |
| AllocationPool.Mark | livestock_accounting/wizard/livestock_cost_allocation.py:244-245 | every candidate keeps its line and is selected exactly when its line was chosen |
| AllocationPool.ApplySelection | livestock_accounting/wizard/livestock_cost_allocation.py:240-245 | applying the wizard syncs the batch, then selects exactly the candidates whose line was chosen; nothing else of the batch changes |
| AllocationPool.PreviousSelectionOf | livestock_accounting/wizard/livestock_cost_allocation.py:93-97 | with distinct candidate lines, a line's remembered flag is exactly its candidate's flag |
| AllocationPool.SyncKeepsSelection | livestock_accounting/wizard/livestock_cost_allocation.py:99-108 | syncing a draft keeps the flag of every still-available line and leaves newly offered lines unselected |
| AllocationPool.SyncIdempotent | livestock_accounting/wizard/livestock_cost_allocation.py:89-108 | with distinct journal line ids, syncing twice is the same as syncing once |
| AllocationPool.SelectionIsExclusive | livestock_accounting/wizard/livestock_cost_allocation.py:62-87 | after the wizard, a draft's selected lines were chosen, are not in cost history and are not selected by any other draft |
| AllocationPool.SelectedLineUnallocated | livestock_accounting/wizard/livestock_cost_allocation.py:73-87 | no line selected through the wizard is in cost history |
| AllocationPool.AllocationAfterSelectionNotAlreadyAllocated | livestock_accounting/wizard/livestock_cost_allocation.py:134-141 | allocating right after the wizard never fails because a line was already allocated |
| AllocationFinding.AsWrittenRowsAgree | livestock_accounting/wizard/livestock_cost_allocation.py:152-169 | when every line is splittable, the unguarded split computes exactly the corrected rows |
| AllocationFinding.GuardMatchesCrash | livestock_accounting/wizard/livestock_cost_allocation.py:153-158 | with non-negative factors, the corrected guard refuses exactly the batches on which the unguarded split divides by zero |
| AllocationFinding.CorrectedAgreesExceptOnCrash | livestock_accounting/wizard/livestock_cost_allocation.py:147-169 | on a valid ledger, the corrected allocation returns NoValidBasis where the allocation as written divides by zero, and the same result everywhere else |
| AllocationFinding.ZeroWeightCategoryDividesByZero | livestock_accounting/wizard/livestock_cost_allocation.py:156-158 | a weighed heifer (100) and an unweighed steer, with one line tagged for steers: the batch-wide factor sum is 100, the split as written divides by zero, and the corrected allocation refuses |

## Left out

- Persistence is not modelled: the ORM, `search` domains, `fields.Command`, record ordering (`_order`) and mail tracking. Stored records are sequences, and a search is a filter over them.
- Transactions are not modelled. An error in the program rolls back everything the operation wrote; in the model an error value carries no partial writes.
- Concurrent drafts racing for the same line are not modelled, because the model is sequential.
- Reference names from `ir.sequence` are not modelled: movement `create` (livestock_movement.py:79-84) and allocation `create` (livestock_cost_allocation.py:32-36) produce names that the model takes as given. An animal's code sequence is modelled as `Sequencer`.
- The sync triggers after allocation `create`/`write` (livestock_cost_allocation.py:37-45) are not modelled as separate operations. Neither are the refresh button and the wizard opener (110-123). Each of them only calls the sync, which is `AllocationPool.Sync`.
- The wizard's `default_get` (224-238) and every window action are UI plumbing and are left out.
- `action_apply` runs over several movements (livestock_movement.py:99-106). The model applies one movement; a failure on a later movement rolls back the earlier ones, and that is a transaction matter.
- Currency, `age_years` (a float division by 365) and real calendar arithmetic are left out. Dates are integers.
- The field-only models (catalogs, health event, cost history, invoice line) appear only as record shapes.
- An unsaved batch has no id. The model writes that as id 0, and `AllocationPool.Reserves` then excludes no batch.
- Odoo recordsets never repeat a record. `Movement.ReclassificationSkipsSettled` and `Movement.SnapshotsBracketTheChange` therefore take the listed animals to be distinct, which the program guarantees by construction.
- Cattle.FreshCodesNeverCollide: holds because the model keeps hand-typed codes (`Manual`) and sequence numbers (`Issued`) apart by construction. The program compares codes as text (livestock_accounting/models/livestock_cattle.py:52, 58-59). A hand-typed or imported code that equals a text the sequence hands out later would collide there and be refused as a duplicate. The sequence's text format is configuration data outside this model, so the model cannot express that collision.
- Cattle.Create: when a batch breaks several constraints at once, the model reports the missing inclusion date first, then a duplicate code, then a missing retirement reason. In the program, which error surfaces first is decided by the database and the ORM. Whether the batch succeeds does not depend on that order.
- Cattle.Create: of the record's required fields, only the inclusion date is modelled as possibly missing. Name, category and code are always present in the `Animal` datatype. Breed, currency and the other fields are not modelled.
- Movement.Apply: takes a movement whose payload passed `CheckRequiredByType`, because the program checks that constraint on every save, so an unsaved payload never reaches `action_apply`.
- CostAllocation.Allocate: states the lines named in the already-allocated error as a set, not in the order the cost-history search returns them.
- CostAllocation.Allocate: the corrected guard refuses a line whose eligible factor sum is at most 0, not only exactly 0. On a valid ledger no factor is negative, so this differs from the program only where the program divides by zero (`AllocationFinding.CorrectedAgreesExceptOnCrash`).

## Findings

| source | as written | input that shows it | evidently intended | confidence | as-written member | corrected member |
|---|---|---|---|---|---|---|
| livestock_accounting/wizard/livestock_cost_allocation.py:156-158 | only the factor sum over all animals is checked (line 149); each line then divides by the factor sum of its own eligible animals, which is never checked. As written, a tagged line first reads `c.category` (line 153), which the animal record does not declare (livestock_accounting/models/livestock_cattle.py:13 declares `category_id`). So the division is reached only once that attribute resolves, as the model assumes | weight method; animal 1 in category 1 with one reading of 100, animal 2 in category 2 with no reading; one selected line tagged with category 2 — the batch sum is 100, the line's eligible sum is 0, and line 158 divides by zero | refuse the batch with the "no valid basis" error before writing anything | not executed | CostAllocation.AllocateAsWritten, AllocationFinding.ZeroWeightCategoryDividesByZero | CostAllocation.Allocate, AllocationFinding.CorrectedAgreesExceptOnCrash |

=== FILE: allocation_finding.dfy ===
/**
 * The unguarded per-line divisor. The split checks that the factors of all the batch's animals
 * add up to something positive, but divides every line's subtotal by the factor sum of that
 * line's eligible animals alone, which nothing checks. Under the weight method an animal without
 * a reading weighs 0, so a line tagged with a category whose animals all lack readings divides
 * by zero although the batch-wide check passed.
 *
 * `AllocateAsWritten` models the split as written (it ends in `DivisionByZero`); `Allocate` is
 * the corrected allocation the rest of the model uses, which refuses such a batch with
 * `NoValidBasis` before writing anything. Below: the two agree everywhere else, the corrected
 * one refuses exactly where the split as written crashes, and a two-animal batch that shows
 * the crash.
 */
module AllocationFinding {
  import opened Common
  import opened Records
  import opened WeightControl
  import opened Cattle
  import opened CostAllocation
  import opened AllocationLaws

  /** When every line can be split, the unguarded split computes exactly the guarded rows. */
  lemma {:induction false} AsWrittenRowsAgree(a: Allocation, lines: seq<InvoiceLine>, bs: seq<Basis>)
    requires AllBasesOk(bs, lines)
    ensures AllRowsAsWritten(a, lines, bs) == Ok(AllRows(a, lines, bs))
  {
    if |lines| > 0 {
      assert AllBasesOk(bs, lines[1..]) by {
        forall i | 0 <= i < |lines[1..]| ensures BasisOk(bs, lines[1..][i]) {
          assert lines[1..][i] == lines[i + 1];
        }
      }
      assert BasisOk(bs, lines[0]);
      AsWrittenRowsAgree(a, lines[1..], bs);
      var rest := AllRows(a, lines[1..], bs);
      if |Eligible(bs, lines[0])| == 0 {
        assert LineBlock(a, lines[0], bs) + rest == rest;
      }
    }
  }

  /** With non-negative factors, the guard refuses exactly the lines the unguarded split divides by zero on. */
  lemma GuardMatchesCrash(a: Allocation, lines: seq<InvoiceLine>, bs: seq<Basis>)
    requires NonNegative(bs)
    ensures AllBasesOk(bs, lines) <==> AllRowsAsWritten(a, lines, bs).Ok?
  {
    forall i | 0 <= i < |lines|
      ensures BasisOk(bs, lines[i]) <==> (|Eligible(bs, lines[i])| == 0 || FactorSum(Eligible(bs, lines[i])) != 0.0)
    {
      var elig := Eligible(bs, lines[i]);
      assert NonNegative(elig) by {
        forall j | 0 <= j < |elig| ensures elig[j].factor >= 0.0 {
          assert elig[j] in bs;
        }
      }
      FactorSumNonNegative(elig);
    }
  }

  /**
   * On a valid weight ledger the corrected allocation differs from the allocation as written
   * only where the latter divides by zero: there it refuses with `NoValidBasis`; everywhere else
   * both return the same result.
   */
  lemma CorrectedAgreesExceptOnCrash(a: Allocation, herd: map<nat, Animal>, weights: seq<WeightEntry>,
                                      history: seq<CostRow>, today: int)
    requires Targets(herd, a.cattle) && ValidLedger(weights)
    ensures var written := AllocateAsWritten(a, herd, weights, history, today);
      var corrected := Allocate(a, herd, weights, history, today);
      && (written.Err? && written.error.DivisionByZero? ==> corrected == Err(NoValidBasis))
      && (!(written.Err? && written.error.DivisionByZero?) ==> corrected == written)
  {
    var bs := Bases(a, herd, weights, today);
    var lines := SelectedLines(a.candidates);
    BasesNonNegative(a, herd, weights, today);
    GuardMatchesCrash(a, lines, bs);
    if AllBasesOk(bs, lines) {
      AsWrittenRowsAgree(a, lines, bs);
    }
  }

  // ---------------------------------------------------------------------------------------------
  // A batch that shows it

  const heifers := Category(1)
  const steers := Category(2)

  /** A weighed heifer and an unweighed steer. */
  const herd := map[
    1 := Animal(1, "Heifer", Issued(1), heifers, Some(0), Inventory, None, None),
    2 := Animal(2, "Steer", Issued(2), steers, Some(0), Inventory, None, None)]

  const weights := [WeightEntry(1, 1, Some(5), 100.0, None)]

  /** A feed invoice line of 50 booked against the steers. */
  const feed := InvoiceLine(7, "Feed", SupplierInvoice, true, ProductLine, 1, false, 50.0, Some(steers))

  const batch := Allocation(1, "A1", 10, 1, [1, 2], [Candidate(feed, true)], ByWeight, Draft)

  /**
   * The batch weighs 100 in total, so the batch-wide check passes, but the feed line's only
   * eligible animal weighs 0: the split as written divides by zero, the corrected allocation refuses.
   */
  lemma ZeroWeightCategoryDividesByZero()
    ensures FactorSum(Bases(batch, herd, weights, 10)) == 100.0
    ensures AllocateAsWritten(batch, herd, weights, [], 10) == Err(DivisionByZero(7))
    ensures Allocate(batch, herd, weights, [], 10) == Err(NoValidBasis)
  {
    var bs := Bases(batch, herd, weights, 10);
    assert CurrentWeight(weights, 1, 10) == 100.0 by {
      assert weights[0] in weights;
    }
    assert CurrentWeight(weights, 2, 10) == 0.0;
    assert bs == [Basis(1, heifers, 100.0), Basis(2, steers, 0.0)];
    assert bs[1..] == [Basis(2, steers, 0.0)];
    assert bs[1..][1..] == [];
    assert FactorSum(bs[1..]) == 0.0;
    assert FactorSum(bs) == 100.0;
    var elig := Eligible(bs, feed);
    assert Eligible(bs[1..], feed) == [Basis(2, steers, 0.0)] + Eligible(bs[1..][1..], feed);
    assert elig == [Basis(2, steers, 0.0)];
    assert elig[1..] == [];
    assert FactorSum(elig) == 0.0;
    var lines := SelectedLines(batch.candidates);
    assert SelectedLines(batch.candidates[..0]) == [];
    assert LineIds([]) == {};
    assert lines == [feed];
    assert lines[1..] == [];
    assert AlreadyAllocatedLines(lines, []) == [];
    assert SumSubtotals(lines[1..]) == 0.0;
    assert SumSubtotals(lines) == 50.0;
    assert Precheck(batch, herd, weights, [], 10) == Pass;
    assert !BasisOk(bs, feed);
  }
}

=== FILE: allocation_laws.dfy ===
/**
 * What an allocation guarantees: every line's shares add up to its subtotal, each share lies
 * between zero and the subtotal, one row per (line, eligible animal), the rows conserve the
 * distributed total, and a line that received rows cannot be allocated again.
 */
module AllocationLaws {
  import opened Common
  import opened Records
  import opened WeightControl
  import opened Cattle
  import opened CostAllocation

  // ---------------------------------------------------------------------------------------------
  // Arithmetic on shares

  lemma DivDistributes(u: real, f: real, r: real, s: real)
    requires s != 0.0
    ensures u * (f / s) + u * r / s == u * (f + r) / s
  {
    var q := 1.0 / s;
    assert f / s == f * q;
    assert u * r / s == (u * r) * q;
    assert u * (f + r) / s == (u * (f + r)) * q;
    assert u * (f + r) == u * f + u * r;
    assert (u * f + u * r) * q == (u * f) * q + (u * r) * q;
    assert u * (f * q) == (u * f) * q;
  }

  lemma RatioWithinUnit(f: real, s: real)
    requires 0.0 <= f <= s && s > 0.0
    ensures 0.0 <= f / s <= 1.0
  {}

  /** `x` lies between zero and `u`, whichever side of zero `u` is on. */
  predicate Within(x: real, u: real) {
    if u >= 0.0 then 0.0 <= x <= u else u <= x <= 0.0
  }

  lemma ScaledWithin(u: real, q: real)
    requires 0.0 <= q <= 1.0
    ensures Within(u * q, u)
  {
    if u >= 0.0 {
      assert u * q <= u * 1.0;
    } else {
      assert u * q >= u * 1.0;
    }
  }

  // ---------------------------------------------------------------------------------------------
  // One line

  /** The k-th row of a line goes to the k-th eligible animal, with that animal's share. */
  lemma {:induction false} LineRowAt(a: Allocation, line: InvoiceLine, elig: seq<Basis>, s: real, k: nat)
    requires s != 0.0 && k < |elig|
    ensures LineRows(a, line, elig, s)[k] == ShareRow(a, line, elig[k], s)
  {
    if k > 0 {
      LineRowAt(a, line, elig[1..], s, k - 1);
    }
  }

  lemma LineRowsShape(a: Allocation, line: InvoiceLine, elig: seq<Basis>, s: real)
    requires s != 0.0
    ensures forall k :: 0 <= k < |elig| ==> LineRows(a, line, elig, s)[k] == ShareRow(a, line, elig[k], s)
  {
    forall k | 0 <= k < |elig| ensures LineRows(a, line, elig, s)[k] == ShareRow(a, line, elig[k], s) {
      LineRowAt(a, line, elig, s, k);
    }
  }

  /** Every row of a line's block is booked against that line. */
  lemma LineBlockOfLine(a: Allocation, line: InvoiceLine, bs: seq<Basis>)
    requires BasisOk(bs, line)
    ensures forall i :: 0 <= i < |LineBlock(a, line, bs)| ==> LineBlock(a, line, bs)[i].line == line.id
  {
    var elig := Eligible(bs, line);
    if |elig| > 0 {
      LineRowsShape(a, line, elig, FactorSum(elig));
    }
  }

  /** The shares of a line, over any non-zero divisor, add up to subtotal times factor sum over it. */
  lemma {:induction false} LineRowsScale(a: Allocation, line: InvoiceLine, elig: seq<Basis>, s: real)
    requires s != 0.0
    ensures SumAmounts(LineRows(a, line, elig, s)) == line.subtotal * FactorSum(elig) / s
  {
    if |elig| > 0 {
      LineRowsScale(a, line, elig[1..], s);
      var rows := LineRows(a, line, elig, s);
      assert rows[1..] == LineRows(a, line, elig[1..], s);
      assert SumAmounts(rows) == rows[0].amount + SumAmounts(rows[1..]);
      DivDistributes(line.subtotal, elig[0].factor, FactorSum(elig[1..]), s);
    }
  }

  /** Normalising by the eligible animals' own factor sum, a line's shares add up to its subtotal. */
  lemma SharesSumToSubtotal(a: Allocation, line: InvoiceLine, elig: seq<Basis>)
    requires FactorSum(elig) != 0.0
    ensures SumAmounts(LineRows(a, line, elig, FactorSum(elig))) == line.subtotal
  {
    LineRowsScale(a, line, elig, FactorSum(elig));
  }

  predicate NonNegative(bs: seq<Basis>) {
    forall i :: 0 <= i < |bs| ==> bs[i].factor >= 0.0
  }

  /** With non-negative factors, each factor lies between zero and the factor sum. */
  lemma {:induction false} FactorWithinSum(bs: seq<Basis>, k: nat)
    requires NonNegative(bs) && k < |bs|
    ensures 0.0 <= bs[k].factor <= FactorSum(bs)
  {
    if k > 0 {
      assert bs[1..][k - 1] == bs[k];
      FactorWithinSum(bs[1..], k - 1);
    } else {
      FactorSumNonNegative(bs[1..]);
    }
  }

  lemma {:induction false} FactorSumNonNegative(bs: seq<Basis>)
    requires NonNegative(bs)
    ensures FactorSum(bs) >= 0.0
  {
    if |bs| > 0 {
      FactorSumNonNegative(bs[1..]);
    }
  }

  /** With non-negative factors, every share lies between zero and the line's subtotal. */
  lemma ShareWithinSubtotal(a: Allocation, line: InvoiceLine, elig: seq<Basis>, k: nat)
    requires NonNegative(elig) && FactorSum(elig) > 0.0 && k < |elig|
    ensures Within(LineRows(a, line, elig, FactorSum(elig))[k].amount, line.subtotal)
  {
    var s := FactorSum(elig);
    var q := elig[k].factor / s;
    FactorWithinSum(elig, k);
    RatioWithinUnit(elig[k].factor, s);
    ScaledWithin(line.subtotal, q);
    LineRowAt(a, line, elig, s, k);
    assert LineRows(a, line, elig, s)[k].amount == line.subtotal * q;
  }

  // ---------------------------------------------------------------------------------------------
  // Factors

  /** On a valid weight ledger every factor of every method is non-negative. */
  lemma BasesNonNegative(a: Allocation, herd: map<nat, Animal>, weights: seq<WeightEntry>, today: int)
    requires Targets(herd, a.cattle) && ValidLedger(weights)
    ensures NonNegative(Bases(a, herd, weights, today))
  {
    var bs := Bases(a, herd, weights, today);
    forall i | 0 <= i < |bs| ensures bs[i].factor >= 0.0 {
      CurrentWeightSign(weights, a.cattle[i], today);
    }
  }

  lemma {:induction false} FactorSumAtLeastCount(bs: seq<Basis>)
    requires forall i :: 0 <= i < |bs| ==> bs[i].factor >= 1.0
    ensures FactorSum(bs) >= |bs| as real
  {
    if |bs| > 0 {
      FactorSumAtLeastCount(bs[1..]);
    }
  }

  /**
   * Equal and age factors are at least 1, so with at least one animal neither method can fail
   * for want of a basis: only the weight method can.
   */
  lemma EqualAndAgeAlwaysHaveBasis(a: Allocation, herd: map<nat, Animal>, weights: seq<WeightEntry>, today: int, line: InvoiceLine)
    requires Targets(herd, a.cattle) && |a.cattle| > 0 && a.allocationMethod != ByWeight
    ensures FactorSum(Bases(a, herd, weights, today)) > 0.0
    ensures BasisOk(Bases(a, herd, weights, today), line)
  {
    var bs := Bases(a, herd, weights, today);
    assert forall i :: 0 <= i < |bs| ==> bs[i].factor >= 1.0;
    FactorSumAtLeastCount(bs);
    var elig := Eligible(bs, line);
    forall i | 0 <= i < |elig| ensures elig[i].factor >= 1.0 {
      assert elig[i] in bs;
    }
    FactorSumAtLeastCount(elig);
  }

  // ---------------------------------------------------------------------------------------------
  // All lines

  /** The rows written for one line. */
  function RowsFor(rows: seq<CostRow>, lineId: nat): seq<CostRow> {
    if |rows| == 0 then []
    else (if rows[0].line == lineId then [rows[0]] else []) + RowsFor(rows[1..], lineId)
  }

  /** A row is picked out for a line exactly when it is one of the rows and names that line. */
  lemma {:induction false} RowsForMembers(rows: seq<CostRow>, lineId: nat, x: CostRow)
    ensures x in RowsFor(rows, lineId) <==> x in rows && x.line == lineId
  {
    if |rows| > 0 {
      RowsForMembers(rows[1..], lineId, x);
      assert x in rows <==> x == rows[0] || x in rows[1..];
    }
  }

  lemma {:induction false} RowsForConcat(x: seq<CostRow>, y: seq<CostRow>, lineId: nat)
    ensures RowsFor(x + y, lineId) == RowsFor(x, lineId) + RowsFor(y, lineId)
  {
    if |x| == 0 {
      assert x + y == y;
    } else {
      var xy := x + y;
      var head := if x[0].line == lineId then [x[0]] else [];
      assert xy[0] == x[0];
      assert xy[1..] == x[1..] + y;
      RowsForConcat(x[1..], y, lineId);
      calc {
        RowsFor(xy, lineId);
        head + RowsFor(x[1..] + y, lineId);
        head + (RowsFor(x[1..], lineId) + RowsFor(y, lineId));
        (head + RowsFor(x[1..], lineId)) + RowsFor(y, lineId);
      }
    }
  }

  lemma {:induction false} RowsForUniform(rows: seq<CostRow>, lineId: nat, other: nat)
    requires forall i :: 0 <= i < |rows| ==> rows[i].line == lineId
    ensures RowsFor(rows, lineId) == rows
    ensures other != lineId ==> RowsFor(rows, other) == []
  {
    if |rows| > 0 {
      RowsForUniform(rows[1..], lineId, other);
    }
  }

  lemma {:induction false} SumAmountsConcat(x: seq<CostRow>, y: seq<CostRow>)
    ensures SumAmounts(x + y) == SumAmounts(x) + SumAmounts(y)
  {
    if |x| == 0 {
      assert x + y == y;
    } else {
      SumAmountsConcat(x[1..], y);
      assert (x + y)[1..] == x[1..] + y;
    }
  }

  /** All rows are the first line's block followed by the rows of the remaining lines. */
  lemma AllRowsUnfold(a: Allocation, lines: seq<InvoiceLine>, bs: seq<Basis>)
    requires AllBasesOk(bs, lines) && |lines| > 0
    ensures AllBasesOk(bs, lines[1..])
    ensures AllRows(a, lines, bs) == LineBlock(a, lines[0], bs) + AllRows(a, lines[1..], bs)
  {
    assert forall i :: 0 <= i < |lines[1..]| ==> lines[1..][i] == lines[i + 1];
  }

  /** A line other than the first of distinct-id lines is among the rest and has another id. */
  lemma LaterLine(lines: seq<InvoiceLine>, line: InvoiceLine)
    requires DistinctIds(lines) && line in lines && line != lines[0]
    ensures line in lines[1..] && line.id != lines[0].id && DistinctIds(lines[1..])
  {
    var i :| 0 <= i < |lines| && lines[i] == line;
    assert lines[1..][i - 1] == line;
    assert forall p, q :: 0 <= p < q < |lines[1..]| ==> lines[1..][p] == lines[p + 1] && lines[1..][q] == lines[q + 1];
  }

  /** The first of distinct-id lines shares its id with none of the rest. */
  lemma FirstLineUnique(lines: seq<InvoiceLine>)
    requires DistinctIds(lines) && |lines| > 0
    ensures forall i :: 0 <= i < |lines[1..]| ==> lines[1..][i].id != lines[0].id
  {
    assert forall i :: 0 <= i < |lines[1..]| ==> lines[1..][i] == lines[i + 1];
  }

  /** Picking out one line's rows from all rows gives exactly that line's block. */
  lemma {:induction false} RowsForLine(a: Allocation, lines: seq<InvoiceLine>, bs: seq<Basis>, line: InvoiceLine)
    requires AllBasesOk(bs, lines) && DistinctIds(lines) && line in lines
    ensures RowsFor(AllRows(a, lines, bs), line.id) == LineBlock(a, line, bs)
  {
    AllRowsUnfold(a, lines, bs);
    var first := LineBlock(a, lines[0], bs);
    var rest := AllRows(a, lines[1..], bs);
    RowsForConcat(first, rest, line.id);
    LineBlockOfLine(a, lines[0], bs);
    RowsForUniform(first, lines[0].id, line.id);
    if line == lines[0] {
      FirstLineUnique(lines);
      RowsForAbsent(a, lines[1..], bs, line.id);
    } else {
      LaterLine(lines, line);
      RowsForLine(a, lines[1..], bs, line);
    }
  }

  /** A line id that none of the lines carries gets no row. */
  lemma {:induction false} RowsForAbsent(a: Allocation, lines: seq<InvoiceLine>, bs: seq<Basis>, lineId: nat)
    requires AllBasesOk(bs, lines) && forall i :: 0 <= i < |lines| ==> lines[i].id != lineId
    ensures RowsFor(AllRows(a, lines, bs), lineId) == []
  {
    if |lines| > 0 {
      assert AllBasesOk(bs, lines[1..]) by {
        forall i | 0 <= i < |lines[1..]| ensures BasisOk(bs, lines[1..][i]) {
          assert lines[1..][i] == lines[i + 1];
        }
      }
      var first := LineBlock(a, lines[0], bs);
      RowsForConcat(first, AllRows(a, lines[1..], bs), lineId);
      LineBlockOfLine(a, lines[0], bs);
      RowsForUniform(first, lines[0].id, lineId);
      RowsForAbsent(a, lines[1..], bs, lineId);
    }
  }

  /** Filtering never repeats an animal: the eligible animals are a sub-multiset of the batch. */
  lemma {:induction false} EligibleIsSubMultiset(bs: seq<Basis>, line: InvoiceLine)
    ensures multiset(Eligible(bs, line)) <= multiset(bs)
  {
    if |bs| > 0 {
      var tail := bs[1..];
      EligibleIsSubMultiset(tail, line);
      var rest := Eligible(tail, line);
      assert bs == [bs[0]] + tail;
      assert multiset(bs) == multiset{bs[0]} + multiset(tail);
      if Concerns(line, bs[0]) {
        assert Eligible(bs, line) == [bs[0]] + rest;
        assert multiset([bs[0]] + rest) == multiset{bs[0]} + multiset(rest);
      } else {
        assert Eligible(bs, line) == rest;
      }
    }
  }

  /** The animals of a batch without repeats stay without repeats among a line's eligible animals. */
  lemma {:induction false} EligibleOncePerAnimal(bs: seq<Basis>, line: InvoiceLine)
    requires forall i, j :: 0 <= i < j < |bs| ==> bs[i].cattle != bs[j].cattle
    ensures forall i, j :: 0 <= i < j < |Eligible(bs, line)| ==> Eligible(bs, line)[i].cattle != Eligible(bs, line)[j].cattle
  {
    if |bs| > 0 {
      var tail := bs[1..];
      assert forall i :: 0 <= i < |tail| ==> tail[i] == bs[i + 1];
      EligibleOncePerAnimal(tail, line);
      var rest := Eligible(tail, line);
      forall k | 0 <= k < |rest| ensures rest[k].cattle != bs[0].cattle {
        assert rest[k] in tail;
      }
    }
  }

  /**
   * One row per (selected line, eligible animal): the rows of a line follow its eligible animals
   * in order, carry the batch, its date and its method, and add up to the line's subtotal; a
   * line that concerns no animal gets no row.
   */
  lemma OneRowPerEligibleAnimal(a: Allocation, herd: map<nat, Animal>, weights: seq<WeightEntry>, history: seq<CostRow>,
                                today: int, line: InvoiceLine)
    requires Targets(herd, a.cattle)
    requires Allocate(a, herd, weights, history, today).Ok?
    requires line in SelectedLines(a.candidates)
    ensures var rows := RowsFor(Allocate(a, herd, weights, history, today).value.1, line.id);
      var elig := Eligible(Bases(a, herd, weights, today), line);
      && |rows| == |elig|
      && (forall k :: 0 <= k < |rows| ==>
            && rows[k].cattle == elig[k].cattle && rows[k].line == line.id
            && rows[k].allocation == Some(a.id) && rows[k].date == a.date
            && rows[k].allocationMethod == a.allocationMethod)
      && (|elig| > 0 ==> SumAmounts(rows) == line.subtotal)
  {
    var bs := Bases(a, herd, weights, today);
    var lines := SelectedLines(a.candidates);
    assert Allocate(a, herd, weights, history, today).value.1 == AllRows(a, lines, bs);
    LineShareRows(a, lines, bs, line);
  }

  /** A line's rows among all rows: one per eligible animal, in order, summing to its subtotal. */
  lemma LineShareRows(a: Allocation, lines: seq<InvoiceLine>, bs: seq<Basis>, line: InvoiceLine)
    requires AllBasesOk(bs, lines) && DistinctIds(lines) && line in lines
    ensures var rows := RowsFor(AllRows(a, lines, bs), line.id);
      var elig := Eligible(bs, line);
      && |rows| == |elig|
      && (forall k :: 0 <= k < |rows| ==>
            && rows[k].cattle == elig[k].cattle && rows[k].line == line.id
            && rows[k].allocation == Some(a.id) && rows[k].date == a.date
            && rows[k].allocationMethod == a.allocationMethod)
      && (|elig| > 0 ==> SumAmounts(rows) == line.subtotal)
  {
    RowsForLine(a, lines, bs, line);
    var rows := RowsFor(AllRows(a, lines, bs), line.id);
    var elig := Eligible(bs, line);
    var i :| 0 <= i < |lines| && lines[i] == line;
    assert BasisOk(bs, lines[i]);
    if |elig| > 0 {
      assert rows == LineRows(a, line, elig, FactorSum(elig));
      LineRowsShape(a, line, elig, FactorSum(elig));
      SharesSumToSubtotal(a, line, elig);
    } else {
      assert rows == [];
    }
  }

  /** On a valid weight ledger, every share of an allocation lies between zero and its line's subtotal. */
  lemma SharesWithinSubtotals(a: Allocation, herd: map<nat, Animal>, weights: seq<WeightEntry>, history: seq<CostRow>,
                              today: int, line: InvoiceLine, k: nat)
    requires Targets(herd, a.cattle) && ValidLedger(weights)
    requires Allocate(a, herd, weights, history, today).Ok?
    requires line in SelectedLines(a.candidates)
    requires k < |RowsFor(Allocate(a, herd, weights, history, today).value.1, line.id)|
    ensures var amount := RowsFor(Allocate(a, herd, weights, history, today).value.1, line.id)[k].amount;
      && (line.subtotal >= 0.0 ==> 0.0 <= amount <= line.subtotal)
      && (line.subtotal <= 0.0 ==> line.subtotal <= amount <= 0.0)
  {
    var bs := Bases(a, herd, weights, today);
    var lines := SelectedLines(a.candidates);
    RowsForLine(a, lines, bs, line);
    var elig := Eligible(bs, line);
    var i :| 0 <= i < |lines| && lines[i] == line;
    assert BasisOk(bs, lines[i]);
    BasesNonNegative(a, herd, weights, today);
    assert NonNegative(elig) by {
      forall j | 0 <= j < |elig| ensures elig[j].factor >= 0.0 {
        assert elig[j] in bs;
      }
    }
    ShareWithinSubtotal(a, line, elig, k);
  }

  /** The lines that concern at least one animal: the only ones whose amount is distributed. */
  function Covered(lines: seq<InvoiceLine>, bs: seq<Basis>): seq<InvoiceLine> {
    if |lines| == 0 then []
    else (if |Eligible(bs, lines[0])| > 0 then [lines[0]] else []) + Covered(lines[1..], bs)
  }

  /** The rows of an allocation add up to the subtotals of the lines that concern some animal. */
  lemma {:induction false} RowsConserveCovered(a: Allocation, lines: seq<InvoiceLine>, bs: seq<Basis>)
    requires AllBasesOk(bs, lines)
    ensures SumAmounts(AllRows(a, lines, bs)) == SumSubtotals(Covered(lines, bs))
  {
    if |lines| > 0 {
      assert AllBasesOk(bs, lines[1..]) by {
        forall i | 0 <= i < |lines[1..]| ensures BasisOk(bs, lines[1..][i]) {
          assert lines[1..][i] == lines[i + 1];
        }
      }
      RowsConserveCovered(a, lines[1..], bs);
      var first := LineBlock(a, lines[0], bs);
      SumAmountsConcat(first, AllRows(a, lines[1..], bs));
      var elig := Eligible(bs, lines[0]);
      assert BasisOk(bs, lines[0]);
      if |elig| > 0 {
        SharesSumToSubtotal(a, lines[0], elig);
        assert Covered(lines, bs) == [lines[0]] + Covered(lines[1..], bs);
        assert ([lines[0]] + Covered(lines[1..], bs))[1..] == Covered(lines[1..], bs);
      } else {
        assert first == [];
        assert first + AllRows(a, lines[1..], bs) == AllRows(a, lines[1..], bs);
        assert Covered(lines, bs) == Covered(lines[1..], bs);
      }
    }
  }

  lemma {:induction false} AllCovered(lines: seq<InvoiceLine>, bs: seq<Basis>)
    requires forall i :: 0 <= i < |lines| ==> |Eligible(bs, lines[i])| > 0
    ensures Covered(lines, bs) == lines
  {
    if |lines| > 0 {
      AllCovered(lines[1..], bs);
    }
  }

  /**
   * When every selected line concerns at least one of the batch's animals, the rows of an
   * allocation distribute exactly the batch's total.
   */
  lemma AllocationDistributesTotal(a: Allocation, herd: map<nat, Animal>, weights: seq<WeightEntry>, history: seq<CostRow>, today: int)
    requires Targets(herd, a.cattle)
    requires Allocate(a, herd, weights, history, today).Ok?
    requires forall l :: l in SelectedLines(a.candidates) ==> |Eligible(Bases(a, herd, weights, today), l)| > 0
    ensures SumAmounts(Allocate(a, herd, weights, history, today).value.1) == Total(a)
  {
    var bs := Bases(a, herd, weights, today);
    var lines := SelectedLines(a.candidates);
    RowsConserveCovered(a, lines, bs);
    AllCovered(lines, bs);
  }

  lemma {:induction false} SumSubtotalsAppend(lines: seq<InvoiceLine>, l: InvoiceLine)
    ensures SumSubtotals(lines + [l]) == SumSubtotals(lines) + l.subtotal
  {
    if |lines| == 0 {
      assert (lines + [l])[1..] == [];
    } else {
      SumSubtotalsAppend(lines[1..], l);
      assert (lines + [l])[1..] == lines[1..] + [l];
    }
  }

  /**
   * The total counts every selected line once: a further candidate adds its line's subtotal
   * when it is selected and its line is not selected yet, and nothing otherwise.
   */
  lemma TotalAppend(a: Allocation, c: Candidate)
    ensures Total(a.(candidates := a.candidates + [c])) ==
      Total(a) + (if c.selected && c.line.id !in LineIds(SelectedLines(a.candidates)) then c.line.subtotal else 0.0)
  {
    var cands := a.candidates + [c];
    assert cands[..|cands| - 1] == a.candidates;
    if c.selected && c.line.id !in LineIds(SelectedLines(a.candidates)) {
      SumSubtotalsAppend(SelectedLines(a.candidates), c.line);
    }
  }

  // ---------------------------------------------------------------------------------------------
  // No double allocation

  /** The lines referred to by a concatenated history are those of either part. */
  lemma HistoryLinesAppend(h1: seq<CostRow>, h2: seq<CostRow>)
    ensures HistoryLines(h1 + h2) == HistoryLines(h1) + HistoryLines(h2)
  {
    forall id | id in HistoryLines(h1 + h2) ensures id in HistoryLines(h1) + HistoryLines(h2) {
      var k :| 0 <= k < |h1 + h2| && (h1 + h2)[k].line == id;
      if k >= |h1| {
        assert h2[k - |h1|].line == id;
      }
    }
    forall id | id in HistoryLines(h2) ensures id in HistoryLines(h1 + h2) {
      var k :| 0 <= k < |h2| && h2[k].line == id;
      assert (h1 + h2)[|h1| + k] == h2[k];
    }
  }

  /**
   * A line that received rows in one allocation is refused by every later allocation that
   * selects it, and that refusal names it.
   */
  lemma SecondAllocationOfALineFails(a: Allocation, b: Allocation, herd: map<nat, Animal>, weights: seq<WeightEntry>,
                                     history: seq<CostRow>, today: int, line: InvoiceLine)
    requires Targets(herd, a.cattle) && Targets(herd, b.cattle)
    requires Allocate(a, herd, weights, history, today).Ok?
    requires line in SelectedLines(a.candidates) && |Eligible(Bases(a, herd, weights, today), line)| > 0
    requires line in SelectedLines(b.candidates) && |b.cattle| > 0 && b.state == Draft
    ensures var later := Allocate(b, herd, weights, history + Allocate(a, herd, weights, history, today).value.1, today);
      later.Err? && later.error.AlreadyAllocated? && line.displayName in later.error.names
  {
    var rows := Allocate(a, herd, weights, history, today).value.1;
    OneRowPerEligibleAnimal(a, herd, weights, history, today, line);
    var mine := RowsFor(rows, line.id);
    RowsForMembers(rows, line.id, mine[0]);
    assert mine[0] in rows && mine[0].line == line.id;
    assert mine[0] in history + rows;
    assert line.id in HistoryLines(history + rows);
  }

  /**
   * A line that concerns none of the batch's animals gets no row, so it stays unallocated and its
   * amount is not distributed anywhere.
   */
  lemma SkippedLineStaysUnallocated(a: Allocation, herd: map<nat, Animal>, weights: seq<WeightEntry>, history: seq<CostRow>,
                                    today: int, line: InvoiceLine)
    requires Targets(herd, a.cattle)
    requires Allocate(a, herd, weights, history, today).Ok?
    requires line in SelectedLines(a.candidates) && |Eligible(Bases(a, herd, weights, today), line)| == 0
    ensures line.id !in HistoryLines(history + Allocate(a, herd, weights, history, today).value.1)
  {
    var rows := Allocate(a, herd, weights, history, today).value.1;
    OneRowPerEligibleAnimal(a, herd, weights, history, today, line);
    forall x | x in history + rows ensures x.line != line.id {
      if x in rows {
        RowsForMembers(rows, line.id, x);
      }
    }
  }
}

=== FILE: allocation_pool.dfy ===
/**
 * The pool of invoice lines a draft allocation may choose from: posted supplier-invoice lines of
 * the batch's company that no cost-history row refers to and that no other draft batch has
 * selected. Syncing rebuilds a draft's candidate list from that pool and keeps the selection
 * flags of the lines that are still offered; the selection wizard then sets every flag from the
 * set of lines the user picked.
 */
module AllocationPool {
  import opened Common
  import opened Records
  import opened WeightControl
  import opened Cattle
  import opened CostAllocation

  /** What the books hold: the journal lines, every allocation batch and the cost history. */
  datatype Books = Books(lines: seq<InvoiceLine>, allocations: seq<Allocation>, history: seq<CostRow>)

  // ---------------------------------------------------------------------------------------------
  // The pool

  /**
   * Whether batch `b` holds a reservation against a batch with id `selfId`: it is a draft and,
   * unless `selfId` is 0 (a batch not saved yet, which has no id), it is another batch.
   */
  predicate Reserves(b: Allocation, selfId: nat) {
    b.state == Draft && (selfId == 0 || b.id != selfId)
  }

  /** The lines selected in the drafts that hold a reservation against batch `selfId`. */
  function ReservedLineIds(allocations: seq<Allocation>, selfId: nat): (ids: set<nat>)
    ensures forall id :: id in ids <==>
      exists j, k :: 0 <= j < |allocations| && allocations[j].state == Draft
        && (selfId == 0 || allocations[j].id != selfId)
        && 0 <= k < |allocations[j].candidates| && allocations[j].candidates[k].selected
        && allocations[j].candidates[k].line.id == id
  {
    set j, k | 0 <= j < |allocations| && Reserves(allocations[j], selfId)
                && 0 <= k < |allocations[j].candidates| && allocations[j].candidates[k].selected
      :: allocations[j].candidates[k].line.id
  }

  /** A line may be offered to a batch of `company`: a posted supplier-invoice product line of that company. */
  predicate Offered(l: InvoiceLine, company: nat) {
    && l.moveType == SupplierInvoice
    && l.posted
    && (l.displayType == NoDisplayType || l.displayType == ProductLine)
    && l.company == company
    && !l.excludeFromInvoiceTab
  }

  /** The ids a batch may not take: already allocated, or reserved by another draft. */
  function Unavailable(books: Books, a: Allocation): set<nat> {
    HistoryLines(books.history) + ReservedLineIds(books.allocations, a.id)
  }

  /** The journal lines offered to `a` and not unavailable, in journal order. */
  function Pool(lines: seq<InvoiceLine>, company: nat, unavailable: set<nat>): (r: seq<InvoiceLine>)
    ensures forall l :: l in r <==> l in lines && Offered(l, company) && l.id !in unavailable
    ensures DistinctIds(lines) ==> DistinctIds(r)
  {
    if |lines| == 0 then []
    else
      var rest := Pool(lines[1..], company, unavailable);
      assert forall l :: l in lines <==> l == lines[0] || l in lines[1..];
      assert DistinctIds(lines) ==> DistinctIds(lines[1..]) by {
        if DistinctIds(lines) {
          forall i, j | 0 <= i < j < |lines[1..]| ensures lines[1..][i].id != lines[1..][j].id {
            assert lines[1..][i] == lines[i + 1] && lines[1..][j] == lines[j + 1];
          }
        }
      }
      if Offered(lines[0], company) && lines[0].id !in unavailable then
        assert DistinctIds(lines) ==> forall l :: l in rest ==> l.id != lines[0].id by {
          if DistinctIds(lines) {
            forall l | l in rest ensures l.id != lines[0].id {
              var i :| 0 <= i < |lines[1..]| && lines[1..][i] == l;
              assert lines[i + 1] == l;
            }
          }
        }
        [lines[0]] + rest
      else rest
  }

  function AvailableLines(books: Books, a: Allocation): seq<InvoiceLine> {
    Pool(books.lines, a.company, Unavailable(books, a))
  }

  // ---------------------------------------------------------------------------------------------
  // Sync

  /**
   * The flag a line had in an earlier candidate list: that of its last candidate, the one a
   * dictionary built over the list keeps; false when the line was not a candidate.
   */
  function PreviousSelection(cands: seq<Candidate>, lineId: nat): (sel: bool)
    ensures sel ==> exists k :: 0 <= k < |cands| && cands[k].line.id == lineId && cands[k].selected
    ensures (forall k :: 0 <= k < |cands| ==> cands[k].line.id != lineId) ==> !sel
  {
    if |cands| == 0 then false
    else
      var n := |cands| - 1;
      if cands[n].line.id == lineId then cands[n].selected
      else
        assert forall k :: 0 <= k < n ==> cands[..n][k] == cands[k];
        PreviousSelection(cands[..n], lineId)
  }

  /** Candidates for `pool`, each carrying the flag its line had in `previous`. */
  function Rebuild(pool: seq<InvoiceLine>, previous: seq<Candidate>): (r: seq<Candidate>)
    ensures |r| == |pool|
    ensures forall i :: 0 <= i < |r| ==> r[i].line == pool[i]
  {
    if |pool| == 0 then []
    else [Candidate(pool[0], PreviousSelection(previous, pool[0].id))] + Rebuild(pool[1..], previous)
  }

  /**
   * Syncing a batch: a done batch is left as it is; a draft gets one candidate per available
   * line, in journal order, each keeping the flag its line had before (unselected when new).
   */
  function Sync(books: Books, a: Allocation): (r: Allocation)
    ensures a.state == Done ==> r == a
    ensures r.(candidates := a.candidates) == a
    ensures a.state == Draft ==>
      && |r.candidates| == |AvailableLines(books, a)|
      && forall i :: 0 <= i < |r.candidates| ==> r.candidates[i].line == AvailableLines(books, a)[i]
    ensures a.state == Draft ==> forall c :: c in r.candidates ==>
      && c.line in books.lines && Offered(c.line, a.company)
      && c.line.id !in HistoryLines(books.history)
      && c.line.id !in ReservedLineIds(books.allocations, a.id)
  {
    if a.state == Done then a
    else
      var r := a.(candidates := Rebuild(AvailableLines(books, a), a.candidates));
      assert forall c :: c in r.candidates ==> c.line in AvailableLines(books, a);
      r
  }

  // ---------------------------------------------------------------------------------------------
  // The selection wizard

  /** Every candidate's flag set to whether its line was picked. */
  function Mark(cands: seq<Candidate>, chosen: set<nat>): (r: seq<Candidate>)
    ensures |r| == |cands|
    ensures forall i :: 0 <= i < |r| ==> r[i].line == cands[i].line && (r[i].selected <==> cands[i].line.id in chosen)
  {
    if |cands| == 0 then [] else [cands[0].(selected := cands[0].line.id in chosen)] + Mark(cands[1..], chosen)
  }

  /** Applying the wizard's choice: sync the batch, then select exactly the picked lines. */
  function ApplySelection(books: Books, a: Allocation, chosen: set<nat>): (r: Allocation)
    ensures r.(candidates := a.candidates) == a
    ensures |r.candidates| == |Sync(books, a).candidates|
    ensures forall i :: 0 <= i < |r.candidates| ==>
      r.candidates[i].line == Sync(books, a).candidates[i].line && (r.candidates[i].selected <==> r.candidates[i].line.id in chosen)
  {
    var s := Sync(books, a);
    s.(candidates := Mark(s.candidates, chosen))
  }

  // ---------------------------------------------------------------------------------------------
  // Laws

  /** With distinct candidate lines, a line keeps exactly the flag of its candidate. */
  lemma {:induction false} PreviousSelectionOf(cands: seq<Candidate>, k: nat)
    requires k < |cands|
    requires forall i, j :: 0 <= i < j < |cands| ==> cands[i].line.id != cands[j].line.id
    ensures PreviousSelection(cands, cands[k].line.id) == cands[k].selected
  {
    var n := |cands| - 1;
    if k < n {
      assert cands[n].line.id != cands[k].line.id;
      assert cands[..n][k] == cands[k];
      PreviousSelectionOf(cands[..n], k);
    }
  }

  /**
   * Syncing a draft whose candidate lines are distinct keeps the flag of every line still
   * available, and leaves a newly offered line unselected.
   */
  lemma SyncKeepsSelection(books: Books, a: Allocation, i: nat)
    requires a.state == Draft
    requires forall p, q :: 0 <= p < q < |a.candidates| ==> a.candidates[p].line.id != a.candidates[q].line.id
    requires i < |Sync(books, a).candidates|
    ensures var c := Sync(books, a).candidates[i];
      && (forall k :: 0 <= k < |a.candidates| && a.candidates[k].line.id == c.line.id ==> c.selected == a.candidates[k].selected)
      && ((forall k :: 0 <= k < |a.candidates| ==> a.candidates[k].line.id != c.line.id) ==> !c.selected)
  {
    var pool := AvailableLines(books, a);
    RebuildAt(pool, a.candidates, i);
    var c := Sync(books, a).candidates[i];
    forall k | 0 <= k < |a.candidates| && a.candidates[k].line.id == c.line.id
      ensures c.selected == a.candidates[k].selected
    {
      PreviousSelectionOf(a.candidates, k);
    }
  }

  lemma {:induction false} RebuildAt(pool: seq<InvoiceLine>, previous: seq<Candidate>, i: nat)
    requires i < |pool|
    ensures Rebuild(pool, previous)[i] == Candidate(pool[i], PreviousSelection(previous, pool[i].id))
  {
    if i > 0 {
      RebuildAt(pool[1..], previous, i - 1);
    }
  }

  /** With distinct journal line ids, syncing twice is syncing once. */
  lemma SyncIdempotent(books: Books, a: Allocation)
    requires DistinctIds(books.lines)
    ensures Sync(books, Sync(books, a)) == Sync(books, a)
  {
    if a.state == Draft {
      var s := Sync(books, a);
      var pool := AvailableLines(books, a);
      assert AvailableLines(books, s) == pool;
      assert DistinctIds(pool);
      var t := Sync(books, s);
      assert |t.candidates| == |s.candidates|;
      forall i | 0 <= i < |s.candidates| ensures t.candidates[i] == s.candidates[i] {
        RebuildAt(pool, s.candidates, i);
        PreviousSelectionOf(s.candidates, i);
      }
      assert t.candidates == s.candidates;
    }
  }

  /**
   * After the wizard is applied to a draft, none of its selected lines is in cost history or
   * selected by another draft batch of the books: no line is reserved twice.
   */
  lemma SelectionIsExclusive(books: Books, a: Allocation, chosen: set<nat>, j: nat, k: nat, l: InvoiceLine)
    requires a.state == Draft && a.id != 0
    requires l in SelectedLines(ApplySelection(books, a, chosen).candidates)
    requires j < |books.allocations| && books.allocations[j].state == Draft && books.allocations[j].id != a.id
    requires k < |books.allocations[j].candidates| && books.allocations[j].candidates[k].selected
    ensures l.id != books.allocations[j].candidates[k].line.id
    ensures l.id !in HistoryLines(books.history)
    ensures l.id in chosen
  {
    var r := ApplySelection(books, a, chosen);
    var p :| 0 <= p < |r.candidates| && r.candidates[p].selected && r.candidates[p].line == l;
    assert Sync(books, a).candidates[p] in Sync(books, a).candidates;
    assert books.allocations[j].candidates[k].line.id in ReservedLineIds(books.allocations, a.id);
  }

  /**
   * An allocation run right after the wizard on a draft never fails because a selected line was
   * already allocated: the pool it chose from left out every line in cost history.
   */
  lemma AllocationAfterSelectionNotAlreadyAllocated(books: Books, a: Allocation, chosen: set<nat>,
                                                   herd: map<nat, Animal>, weights: seq<WeightEntry>, today: int)
    requires a.state == Draft && Targets(herd, a.cattle)
    ensures var r := Allocate(ApplySelection(books, a, chosen), herd, weights, books.history, today);
      !(r.Err? && r.error.AlreadyAllocated?)
  {
    var b := ApplySelection(books, a, chosen);
    var r := Allocate(b, herd, weights, books.history, today);
    if r.Err? && r.error.AlreadyAllocated? {
      var s := r.error.names[0];
      assert s in r.error.names;
      var l :| l in SelectedLines(b.candidates) && l.id in HistoryLines(books.history) && l.displayName == s;
      SelectedLineUnallocated(books, a, chosen, l);
    }
  }

  lemma SelectedLineUnallocated(books: Books, a: Allocation, chosen: set<nat>, l: InvoiceLine)
    requires a.state == Draft
    requires l in SelectedLines(ApplySelection(books, a, chosen).candidates)
    ensures l.id !in HistoryLines(books.history)
  {
    var b := ApplySelection(books, a, chosen);
    var p :| 0 <= p < |b.candidates| && b.candidates[p].selected && b.candidates[p].line == l;
    assert Sync(books, a).candidates[p] in Sync(books, a).candidates;
  }
}

=== FILE: cattle.dfy ===
/**
 * The animal registry: the animal record, code assignment on creation, the retirement-reason
 * constraint and the derived metrics (current weight, accumulated cost, cost per kg, age in days).
 */
module Cattle {
  import opened Common
  import opened Records
  import opened WeightControl

  datatype State = Inventory | Retired | Sold

  datatype Reason = Death | Illness | Accident | Sale | OtherReason

  /**
   * An animal's code: the placeholder a new record carries until the sequence replaces it, a code
   * issued by the sequence (its number), or any other code typed in by hand.
   */
  datatype Code = Placeholder | Issued(number: nat) | Manual(text: string)

  datatype Animal = Animal(
    id: nat,
    name: string,
    code: Code,
    category: Category,
    inclusionDate: Option<int>,
    state: State,
    reason: Option<Reason>,
    retirementNotes: Option<string>)

  /** The code sequence: missing from the database, or holding the next number it will issue. */
  datatype Sequencer = Unconfigured | Counter(next: nat)

  datatype CattleError = MissingInclusionDate(cattle: nat) | DuplicateCode | MissingRetirementReason(cattle: nat)

  // ---------------------------------------------------------------------------------------------
  // Retirement reason

  /** An animal that left the inventory (retired or sold) must say why. */
  predicate ReasonOk(a: Animal) {
    a.state == Inventory || a.reason.Some?
  }

  /** The retirement-reason constraint over a written batch; the first offending animal raises. */
  function CheckRetirementReason(batch: seq<Animal>): (r: Outcome<CattleError>)
    ensures r.Pass? <==> forall i :: 0 <= i < |batch| ==> ReasonOk(batch[i])
    ensures r.Fail? ==>
      exists k :: 0 <= k < |batch| && batch[k].state in {Retired, Sold} && batch[k].reason.None?
        && r.error == MissingRetirementReason(batch[k].id)
  {
    if |batch| == 0 then Pass
    else if batch[0].state in {Retired, Sold} && batch[0].reason.None? then Fail(MissingRetirementReason(batch[0].id))
    else
      var r := CheckRetirementReason(batch[1..]);
      assert forall i :: 1 <= i < |batch| ==> batch[i] == batch[1..][i - 1];
      assert r.Pass? ==> forall i :: 0 <= i < |batch| ==> ReasonOk(batch[i]) by {
        if r.Pass? {
          forall i | 0 <= i < |batch| ensures ReasonOk(batch[i]) {
            if i > 0 {
              assert ReasonOk(batch[1..][i - 1]);
            }
          }
        }
      }
      assert r.Fail? ==> (exists k :: 1 <= k < |batch| && batch[k].state in {Retired, Sold} && batch[k].reason.None?
                            && r.error == MissingRetirementReason(batch[k].id)) by {
        if r.Fail? {
          var k :| 0 <= k < |batch[1..]| && batch[1..][k].state in {Retired, Sold} && batch[1..][k].reason.None?
            && r.error == MissingRetirementReason(batch[1..][k].id);
          assert batch[k + 1] == batch[1..][k];
        }
      }
      r
  }

  // ---------------------------------------------------------------------------------------------
  // Creation and codes

  /** The required-field check on the inclusion date: every record of the batch carries one. */
  function CheckInclusionDate(batch: seq<Animal>): (r: Outcome<CattleError>)
    ensures r.Pass? <==> forall i :: 0 <= i < |batch| ==> batch[i].inclusionDate.Some?
    ensures r.Fail? ==>
      exists k :: 0 <= k < |batch| && batch[k].inclusionDate.None? && r.error == MissingInclusionDate(batch[k].id)
  {
    if |batch| == 0 then Pass
    else if batch[0].inclusionDate.None? then Fail(MissingInclusionDate(batch[0].id))
    else
      var r := CheckInclusionDate(batch[1..]);
      assert forall i :: 1 <= i < |batch| ==> batch[i] == batch[1..][i - 1];
      assert r.Fail? ==>
        exists k :: 1 <= k < |batch| && batch[k].inclusionDate.None? && r.error == MissingInclusionDate(batch[k].id) by {
        if r.Fail? {
          var k :| 0 <= k < |batch[1..]| && batch[1..][k].inclusionDate.None? && r.error == MissingInclusionDate(batch[1..][k].id);
          assert batch[k + 1] == batch[1..][k];
        }
      }
      r
  }

  /** Number of records in `vals` that still carry the placeholder code. */
  function CountPlaceholders(vals: seq<Animal>): nat {
    if |vals| == 0 then 0
    else CountPlaceholders(vals[..|vals| - 1]) + (if vals[|vals| - 1].code == Placeholder then 1 else 0)
  }

  /** What the sequence hands out after `k` earlier requests; a missing sequence leaves the placeholder. */
  function IssuedAfter(sq: Sequencer, k: nat): Code {
    if sq.Counter? then Issued(sq.next + k) else Placeholder
  }

  /** Replaces each placeholder code, in order, by the next code of the sequence. */
  function AssignCodes(vals: seq<Animal>, sq: Sequencer): (r: (seq<Animal>, Sequencer))
    ensures |r.0| == |vals|
    ensures forall i {:trigger r.0[i]} :: 0 <= i < |vals| && vals[i].code != Placeholder ==> r.0[i] == vals[i]
    ensures forall i {:trigger r.0[i]} :: 0 <= i < |vals| && vals[i].code == Placeholder ==>
      r.0[i] == vals[i].(code := IssuedAfter(sq, CountPlaceholders(vals[..i])))
    ensures sq.Counter? ==> r.1 == Counter(sq.next + CountPlaceholders(vals))
    ensures sq.Unconfigured? ==> r.1 == Unconfigured
  {
    if |vals| == 0 then ([], sq)
    else
      var n := |vals| - 1;
      var (init, sq1) := AssignCodes(vals[..n], sq);
      assert forall i :: 0 <= i < n ==> vals[..n][..i] == vals[..i];
      assert vals[..n] == vals[..|vals| - 1];
      var last := if vals[n].code == Placeholder then vals[n].(code := IssuedAfter(sq1, 0)) else vals[n];
      var sq2 := if vals[n].code == Placeholder && sq1.Counter? then Counter(sq1.next + 1) else sq1;
      (init + [last], sq2)
  }

  /** The uniqueness constraint on codes. */
  predicate CodesUnique(reg: seq<Animal>) {
    forall i, j :: 0 <= i < j < |reg| ==> reg[i].code != reg[j].code
  }

  /** Every code the sequence issued so far lies below its next number. */
  predicate CounterAhead(reg: seq<Animal>, sq: Sequencer) {
    forall i :: 0 <= i < |reg| && reg[i].code.Issued? ==> sq.Counter? && reg[i].code.number < sq.next
  }

  /**
   * Creating a batch of animals: placeholder codes are replaced from the sequence, then the
   * required inclusion date, the code uniqueness constraint and the retirement-reason constraint
   * are checked; a failure rejects the whole batch.
   */
  function Create(registry: seq<Animal>, vals: seq<Animal>, sq: Sequencer): (r: Result<(seq<Animal>, Sequencer), CattleError>)
    ensures r.Ok? <==>
      && (forall i :: 0 <= i < |vals| ==> vals[i].inclusionDate.Some?)
      && CodesUnique(registry + AssignCodes(vals, sq).0)
      && (forall i :: 0 <= i < |vals| ==> ReasonOk(vals[i]))
    ensures r.Ok? ==> r.value == (registry + AssignCodes(vals, sq).0, AssignCodes(vals, sq).1)
    ensures r.Err? && r.error.MissingInclusionDate? ==>
      exists k :: 0 <= k < |vals| && vals[k].inclusionDate.None? && r.error.cattle == vals[k].id
    ensures r == Err(DuplicateCode) <==>
      (forall i :: 0 <= i < |vals| ==> vals[i].inclusionDate.Some?) && !CodesUnique(registry + AssignCodes(vals, sq).0)
    ensures r.Err? && r.error.MissingRetirementReason? ==>
      exists k :: 0 <= k < |vals| && !ReasonOk(vals[k]) && r.error.cattle == vals[k].id
    ensures r.Ok? ==>
      && |r.value.0| == |registry| + |vals|
      && r.value.0[..|registry|] == registry
      && CodesUnique(r.value.0)
      && forall i :: |registry| <= i < |r.value.0| ==> ReasonOk(r.value.0[i])
    ensures r.Ok? && sq.Counter? ==> forall i :: |registry| <= i < |r.value.0| ==> r.value.0[i].code != Placeholder
  {
    var (coded, sqNext) := AssignCodes(vals, sq);
    assert forall i :: 0 <= i < |vals| ==>
      && coded[i].id == vals[i].id && coded[i].state == vals[i].state
      && coded[i].reason == vals[i].reason && coded[i].inclusionDate == vals[i].inclusionDate;
    match CheckInclusionDate(vals)
    case Fail(e) => Err(e)
    case Pass =>
      if !CodesUnique(registry + coded) then Err(DuplicateCode)
      else
        match CheckRetirementReason(coded)
        case Fail(e) => Err(e)
        case Pass =>
          assert forall i :: |registry| <= i < |registry + coded| ==> (registry + coded)[i] == coded[i - |registry|];
          Ok((registry + coded, sqNext))
  }

  /**
   * Codes issued by a configured sequence never collide: on a registry whose codes are unique
   * and whose issued numbers lie below the counter, creating dated animals that all carry the
   * placeholder and a valid retirement reason always succeeds and keeps the counter ahead.
   */
  lemma FreshCodesNeverCollide(registry: seq<Animal>, vals: seq<Animal>, sq: Sequencer)
    requires CodesUnique(registry) && CounterAhead(registry, sq) && sq.Counter?
    requires forall i :: 0 <= i < |vals| ==> vals[i].code == Placeholder && ReasonOk(vals[i]) && vals[i].inclusionDate.Some?
    ensures Create(registry, vals, sq).Ok?
    ensures CounterAhead(Create(registry, vals, sq).value.0, Create(registry, vals, sq).value.1)
  {
    var coded := AssignCodes(vals, sq).0;
    var sqNext := AssignCodes(vals, sq).1;
    PlaceholdersNumbered(vals, sq);
    var all := registry + coded;
    assert CodesUnique(all) by {
      forall i, j | 0 <= i < j < |all| ensures all[i].code != all[j].code {
        if j < |registry| {
          assert all[i] == registry[i] && all[j] == registry[j];
        } else if i < |registry| {
          assert all[i] == registry[i] && all[j] == coded[j - |registry|];
        } else {
          assert all[i] == coded[i - |registry|] && all[j] == coded[j - |registry|];
        }
      }
    }
    assert CheckRetirementReason(coded).Pass? by {
      forall i | 0 <= i < |coded| ensures ReasonOk(coded[i]) {
        assert ReasonOk(vals[i]);
      }
    }
    forall i | 0 <= i < |all| && all[i].code.Issued? ensures all[i].code.number < sqNext.next {
      if i >= |registry| { assert all[i] == coded[i - |registry|]; }
    }
  }

  /** A batch made only of placeholders counts every record. */
  lemma {:induction false} AllPlaceholdersCount(vals: seq<Animal>)
    requires forall i :: 0 <= i < |vals| ==> vals[i].code == Placeholder
    ensures CountPlaceholders(vals) == |vals|
  {
    if |vals| > 0 {
      var n := |vals| - 1;
      assert forall i :: 0 <= i < n ==> vals[..n][i] == vals[i];
      AllPlaceholdersCount(vals[..n]);
    }
  }

  /** A placeholder with `i` placeholders before it gets the `i`-th number after the counter. */
  lemma PlaceholderNumberedAt(vals: seq<Animal>, sq: Sequencer, i: nat)
    requires sq.Counter? && i < |vals| && vals[i].code == Placeholder && CountPlaceholders(vals[..i]) == i
    ensures AssignCodes(vals, sq).0[i] == vals[i].(code := Issued(sq.next + i))
  {
    var coded := AssignCodes(vals, sq).0;
    var code := IssuedAfter(sq, CountPlaceholders(vals[..i]));
    assert code == Issued(sq.next + i);
    assert coded[i] == vals[i].(code := code);
  }

  /** With a configured sequence, a batch of placeholders gets consecutive numbers from the counter on. */
  lemma PlaceholdersNumbered(vals: seq<Animal>, sq: Sequencer)
    requires sq.Counter? && forall i :: 0 <= i < |vals| ==> vals[i].code == Placeholder
    ensures forall i :: 0 <= i < |vals| ==> AssignCodes(vals, sq).0[i] == vals[i].(code := Issued(sq.next + i))
    ensures AssignCodes(vals, sq).1 == Counter(sq.next + |vals|)
  {
    forall i | 0 <= i < |vals| ensures AssignCodes(vals, sq).0[i] == vals[i].(code := Issued(sq.next + i)) {
      PrefixPlaceholdersCount(vals, i);
      PlaceholderNumberedAt(vals, sq, i);
    }
    AllPlaceholdersCount(vals);
  }

  /** Every prefix of an all-placeholder batch counts its length. */
  lemma PrefixPlaceholdersCount(vals: seq<Animal>, i: nat)
    requires i <= |vals| && forall k :: 0 <= k < |vals| ==> vals[k].code == Placeholder
    ensures CountPlaceholders(vals[..i]) == i
  {
    var prefix := vals[..i];
    assert forall j :: 0 <= j < |prefix| ==> prefix[j] == vals[j];
    AllPlaceholdersCount(prefix);
  }

  // ---------------------------------------------------------------------------------------------
  // Current weight

  /** The date a reading is sorted by: its own, or today when it has none. */
  function SortDate(e: WeightEntry, today: int): int {
    if e.date.Some? then e.date.value else today
  }

  /** `a` sorts strictly before `b` by (date, id). */
  predicate KeyBefore(a: WeightEntry, b: WeightEntry, today: int) {
    SortDate(a, today) < SortDate(b, today) || (SortDate(a, today) == SortDate(b, today) && a.id < b.id)
  }

  /** The readings of one animal, in ledger order. */
  function ReadingsOf(ledger: seq<WeightEntry>, cattle: nat): (r: seq<WeightEntry>)
    ensures forall e :: e in r <==> e in ledger && e.cattle == cattle
  {
    if |ledger| == 0 then []
    else (if ledger[0].cattle == cattle then [ledger[0]] else []) + ReadingsOf(ledger[1..], cattle)
  }

  /**
   * Position of the reading a stable descending sort by (date, id) puts first: a greatest key,
   * and among equal keys the earliest one.
   */
  function LatestIndex(es: seq<WeightEntry>, today: int): (k: nat)
    requires |es| > 0
    ensures k < |es|
    ensures forall j :: 0 <= j < |es| ==> !KeyBefore(es[k], es[j], today)
    ensures forall j :: 0 <= j < k ==> KeyBefore(es[j], es[k], today)
  {
    if |es| == 1 then 0
    else
      var k := LatestIndex(es[1..], today) + 1;
      assert es[k] == es[1..][k - 1];
      assert forall j :: 1 <= j < |es| ==> es[j] == es[1..][j - 1];
      if KeyBefore(es[0], es[k], today) then k else 0
  }

  /** The weight of the animal's latest reading, 0 when it has none. */
  function CurrentWeight(ledger: seq<WeightEntry>, cattle: nat, today: int): (w: real)
    ensures (forall e :: e in ledger ==> e.cattle != cattle) ==> w == 0.0
    ensures (exists e :: e in ledger && e.cattle == cattle) ==>
      exists e :: e in ledger && e.cattle == cattle && w == e.weight
        && forall e' :: e' in ledger && e'.cattle == cattle ==> !KeyBefore(e, e', today)
  {
    var rs := ReadingsOf(ledger, cattle);
    if |rs| == 0 then 0.0
    else
      var k := LatestIndex(rs, today);
      assert forall e' :: e' in rs ==> !KeyBefore(rs[k], e', today);
      rs[k].weight
  }

  /** On a valid ledger the current weight is positive exactly when the animal has a reading. */
  lemma CurrentWeightSign(ledger: seq<WeightEntry>, cattle: nat, today: int)
    requires ValidLedger(ledger)
    ensures CurrentWeight(ledger, cattle, today) >= 0.0
    ensures CurrentWeight(ledger, cattle, today) > 0.0 <==> exists e :: e in ledger && e.cattle == cattle
  {
    if exists e :: e in ledger && e.cattle == cattle {
      var e :| e in ledger && e.cattle == cattle && CurrentWeight(ledger, cattle, today) == e.weight;
      var i :| 0 <= i < |ledger| && ledger[i] == e;
    }
  }

  // ---------------------------------------------------------------------------------------------
  // Accumulated cost, cost per kg, age

  /** Sum of the allocated amounts of the animal's cost-history rows. */
  function AccumulatedCost(history: seq<CostRow>, cattle: nat): (r: real)
    ensures (forall i :: 0 <= i < |history| && history[i].cattle == cattle ==> history[i].amount >= 0.0) ==> r >= 0.0
  {
    if |history| == 0 then 0.0
    else
      var n := |history| - 1;
      var last := history[n];
      assert forall i :: 0 <= i < n ==> history[..n][i] == history[i];
      AccumulatedCost(history[..n], cattle) + (if last.cattle == cattle then last.amount else 0.0)
  }

  /** Appending cost rows adds their amounts for this animal to its accumulated cost. */
  lemma {:induction false} AccumulatedCostAppend(h1: seq<CostRow>, h2: seq<CostRow>, cattle: nat)
    ensures AccumulatedCost(h1 + h2, cattle) == AccumulatedCost(h1, cattle) + AccumulatedCost(h2, cattle)
    decreases |h2|
  {
    if |h2| == 0 {
      assert h1 + h2 == h1;
    } else {
      var n := |h2| - 1;
      AccumulatedCostAppend(h1, h2[..n], cattle);
      assert (h1 + h2)[..|h1 + h2| - 1] == h1 + h2[..n];
      assert (h1 + h2)[|h1 + h2| - 1] == h2[n];
    }
  }

  /** Rows of other animals leave an animal's accumulated cost unchanged. */
  lemma {:induction false} AccumulatedCostOthers(history: seq<CostRow>, cattle: nat)
    requires forall i :: 0 <= i < |history| ==> history[i].cattle != cattle
    ensures AccumulatedCost(history, cattle) == 0.0
  {
    if |history| > 0 {
      AccumulatedCostOthers(history[..|history| - 1], cattle);
    }
  }

  /** A single row of the animal contributes exactly its amount. */
  lemma AccumulatedCostOwnRow(row: CostRow)
    ensures AccumulatedCost([row], row.cattle) == row.amount
  {
  }

  /** Accumulated cost per kilogram of current weight, guarded against a zero weight. */
  function CostPerKg(cost: real, weight: real): (r: real)
    ensures weight != 0.0 ==> r * weight == cost
    ensures weight == 0.0 ==> r == 0.0
  {
    if weight != 0.0 then cost / weight else 0.0
  }

  /** Days from the inclusion date to today, 0 without an inclusion date. */
  function AgeDays(inclusionDate: Option<int>, today: int): (d: int)
    ensures inclusionDate.Some? ==> inclusionDate.value + d == today
    ensures inclusionDate.None? ==> d == 0
  {
    if inclusionDate.Some? then today - inclusionDate.value else 0
  }
}

=== FILE: common.dfy ===
/** Failure-carrying wrappers and small sequence notions shared by every module of the model. */
module Common {

  /** An optional value; stands for a relational or selection field that may be unset. */
  datatype Option<+T> = None | Some(value: T)

  /** The outcome of an operation that produces a value or raises an error. */
  datatype Result<+T, +E> = Ok(value: T) | Err(error: E)

  /** The outcome of a check that produces nothing but may raise an error. */
  datatype Outcome<+E> = Pass | Fail(error: E)

  /** Truthiness of an optional text field: an unset value and the empty text are both false. */
  predicate Present(t: Option<string>) {
    t.Some? && t.value != ""
  }

  /** `a or b` on two optional text fields. */
  function OrElse(a: Option<string>, b: Option<string>): Option<string> {
    if Present(a) then a else b
  }

  /** No element occurs twice: the shape of every record set. */
  predicate Distinct<T(==)>(s: seq<T>) {
    forall i, j :: 0 <= i < j < |s| ==> s[i] != s[j]
  }
}

=== FILE: cost_allocation.dfy ===
/**
 * The cost-allocation engine: an allocation batch picks invoice lines and animals, weighs the
 * animals by one method, splits every line's subtotal over the animals eligible for its category
 * and writes one cost-history row per (line, animal), moving the batch from draft to done.
 */
module CostAllocation {
  import opened Common
  import opened Records
  import opened WeightControl
  import opened Cattle

  datatype AllocationState = Draft | Done

  /** One line offered to a draft batch, with the user's selection flag. */
  datatype Candidate = Candidate(line: InvoiceLine, selected: bool)

  datatype Allocation = Allocation(
    id: nat,
    name: string,
    date: int,
    company: nat,
    cattle: seq<nat>,
    candidates: seq<Candidate>,
    allocationMethod: Method,
    state: AllocationState)

  datatype AllocationError =
    | NoCattle
    | NoLines
    | AlreadyDone
    | AlreadyAllocated(names: seq<string>)
    | NonPositiveTotal
    | NoValidBasis
    | DivisionByZero(line: nat)

  // ---------------------------------------------------------------------------------------------
  // Selected lines and the total

  predicate DistinctIds(lines: seq<InvoiceLine>) {
    forall i, j :: 0 <= i < j < |lines| ==> lines[i].id != lines[j].id
  }

  function LineIds(lines: seq<InvoiceLine>): set<nat> {
    set l | l in lines :: l.id
  }

  /** The lines of the selected candidates, each line once, in order of first selection. */
  function SelectedLines(cands: seq<Candidate>): (r: seq<InvoiceLine>)
    ensures DistinctIds(r)
    ensures forall l :: l in r ==> exists k :: 0 <= k < |cands| && cands[k].selected && cands[k].line == l
    ensures forall k :: 0 <= k < |cands| && cands[k].selected ==> cands[k].line.id in LineIds(r)
  {
    if |cands| == 0 then []
    else
      var n := |cands| - 1;
      var init := SelectedLines(cands[..n]);
      assert forall k :: 0 <= k < n ==> cands[..n][k] == cands[k];
      if cands[n].selected && cands[n].line.id !in LineIds(init) then
        var r := init + [cands[n].line];
        assert forall l :: l in init ==> l in r;
        assert forall i :: 0 <= i < |init| ==> init[i].id in LineIds(init);
        r
      else init
  }

  function SumSubtotals(lines: seq<InvoiceLine>): real {
    if |lines| == 0 then 0.0 else lines[0].subtotal + SumSubtotals(lines[1..])
  }

  /** The amount a batch distributes: the subtotals of its selected lines, each line counted once. */
  function Total(a: Allocation): (t: real)
    ensures (forall k :: 0 <= k < |a.candidates| ==> !a.candidates[k].selected) ==> t == 0.0
  {
    var lines := SelectedLines(a.candidates);
    assert |lines| > 0 ==> lines[0] in lines;
    SumSubtotals(lines)
  }

  /** Lines that some cost-history row already refers to. */
  function HistoryLines(history: seq<CostRow>): (ids: set<nat>)
    ensures forall id :: id in ids <==> exists k :: 0 <= k < |history| && history[k].line == id
  {
    set r | r in history :: r.line
  }

  /** The selected lines already allocated by an earlier batch. */
  function AlreadyAllocatedLines(lines: seq<InvoiceLine>, history: seq<CostRow>): (r: seq<InvoiceLine>)
    ensures forall l :: l in r <==> l in lines && l.id in HistoryLines(history)
  {
    if |lines| == 0 then []
    else
      var rest := AlreadyAllocatedLines(lines[1..], history);
      assert forall l :: l in lines <==> l == lines[0] || l in lines[1..];
      (if lines[0].id in HistoryLines(history) then [lines[0]] else []) + rest
  }

  function Names(lines: seq<InvoiceLine>): (r: seq<string>)
    ensures |r| == |lines|
    ensures forall i :: 0 <= i < |lines| ==> r[i] == lines[i].displayName
    ensures forall s :: s in r <==> exists l :: l in lines && l.displayName == s
  {
    var r := seq(|lines|, i requires 0 <= i < |lines| => lines[i].displayName);
    assert forall i :: 0 <= i < |lines| ==> r[i] == lines[i].displayName;
    r
  }

  // ---------------------------------------------------------------------------------------------
  // Factors and eligibility

  /** One animal as the split sees it: its id, its category and its weighting factor. */
  datatype Basis = Basis(cattle: nat, category: Category, factor: real)

  /** The weighting factor of one animal under a method. */
  function Factor(m: Method, id: nat, a: Animal, weights: seq<WeightEntry>, today: int): (f: real)
    ensures m == Equal ==> f == 1.0
    ensures m == ByWeight ==> f == CurrentWeight(weights, id, today)
    ensures m == ByAge && AgeDays(a.inclusionDate, today) >= 1 ==> f == AgeDays(a.inclusionDate, today) as real
    ensures m == ByAge && AgeDays(a.inclusionDate, today) < 1 ==> f == 1.0
  {
    match m
    case Equal => 1.0
    case ByWeight => CurrentWeight(weights, id, today)
    case ByAge => var d := AgeDays(a.inclusionDate, today); (if d >= 1 then d else 1) as real
  }

  /** The animals of the batch must exist. */
  predicate Targets(herd: map<nat, Animal>, ids: seq<nat>) {
    forall i :: 0 <= i < |ids| ==> ids[i] in herd
  }

  function Bases(a: Allocation, herd: map<nat, Animal>, weights: seq<WeightEntry>, today: int): (bs: seq<Basis>)
    requires Targets(herd, a.cattle)
    ensures |bs| == |a.cattle|
    ensures forall i :: 0 <= i < |bs| ==> bs[i].cattle == a.cattle[i] && bs[i].category == herd[a.cattle[i]].category
    ensures forall i :: 0 <= i < |bs| ==>
      bs[i].factor == Factor(a.allocationMethod, a.cattle[i], herd[a.cattle[i]], weights, today)
  {
    seq(|a.cattle|, i requires 0 <= i < |a.cattle| =>
      Basis(a.cattle[i], herd[a.cattle[i]].category, Factor(a.allocationMethod, a.cattle[i], herd[a.cattle[i]], weights, today)))
  }

  function FactorSum(bs: seq<Basis>): real {
    if |bs| == 0 then 0.0 else bs[0].factor + FactorSum(bs[1..])
  }

  /** An untagged line concerns every animal; a tagged one only the animals of its category. */
  predicate Concerns(line: InvoiceLine, b: Basis) {
    line.category.None? || b.category == line.category.value
  }

  function Eligible(bs: seq<Basis>, line: InvoiceLine): (r: seq<Basis>)
    ensures forall b :: b in r <==> b in bs && Concerns(line, b)
    ensures line.category.None? ==> r == bs
  {
    if |bs| == 0 then []
    else
      assert forall b :: b in bs <==> b == bs[0] || b in bs[1..];
      var rest := Eligible(bs[1..], line);
      if Concerns(line, bs[0]) then
        assert line.category.None? ==> [bs[0]] + bs[1..] == bs;
        [bs[0]] + rest
      else rest
  }

  /** A line can be split: it concerns no animal, or its animals' factors add up to something positive. */
  predicate BasisOk(bs: seq<Basis>, line: InvoiceLine) {
    |Eligible(bs, line)| == 0 || FactorSum(Eligible(bs, line)) > 0.0
  }

  // ---------------------------------------------------------------------------------------------
  // Rows

  /** One animal's share of one line: subtotal times its factor over the eligible factor sum. */
  function ShareRow(a: Allocation, line: InvoiceLine, b: Basis, eligibleSum: real): CostRow
    requires eligibleSum != 0.0
  {
    CostRow(b.cattle, line.id, Some(a.id), a.date, line.subtotal * (b.factor / eligibleSum), a.allocationMethod,
            "Asignación " + a.name)
  }

  function LineRows(a: Allocation, line: InvoiceLine, elig: seq<Basis>, eligibleSum: real): (rows: seq<CostRow>)
    requires eligibleSum != 0.0
    ensures |rows| == |elig|
  {
    if |elig| == 0 then [] else [ShareRow(a, line, elig[0], eligibleSum)] + LineRows(a, line, elig[1..], eligibleSum)
  }

  /** The rows one line produces: none when it concerns no animal. */
  function LineBlock(a: Allocation, line: InvoiceLine, bs: seq<Basis>): seq<CostRow>
    requires BasisOk(bs, line)
  {
    var elig := Eligible(bs, line);
    if |elig| == 0 then [] else LineRows(a, line, elig, FactorSum(elig))
  }

  predicate AllBasesOk(bs: seq<Basis>, lines: seq<InvoiceLine>) {
    forall i :: 0 <= i < |lines| ==> BasisOk(bs, lines[i])
  }

  /** The rows of all lines, line after line. */
  function AllRows(a: Allocation, lines: seq<InvoiceLine>, bs: seq<Basis>): seq<CostRow>
    requires AllBasesOk(bs, lines)
  {
    if |lines| == 0 then []
    else LineBlock(a, lines[0], bs) + AllRows(a, lines[1..], bs)
  }

  function SumAmounts(rows: seq<CostRow>): real {
    if |rows| == 0 then 0.0 else rows[0].amount + SumAmounts(rows[1..])
  }

  // ---------------------------------------------------------------------------------------------
  // Allocation

  /** The checks before any split, in the order the allocation action raises them. */
  function Precheck(a: Allocation, herd: map<nat, Animal>, weights: seq<WeightEntry>, history: seq<CostRow>, today: int): (r: Outcome<AllocationError>)
    requires Targets(herd, a.cattle)
    ensures r.Pass? <==>
      && a.state == Draft && |a.cattle| > 0 && |SelectedLines(a.candidates)| > 0
      && (forall l :: l in SelectedLines(a.candidates) ==> l.id !in HistoryLines(history))
      && Total(a) > 0.0
      && FactorSum(Bases(a, herd, weights, today)) > 0.0
    ensures r == Fail(NoCattle) <==> |a.cattle| == 0
    ensures r == Fail(NoLines) <==> |a.cattle| > 0 && |SelectedLines(a.candidates)| == 0
    ensures r == Fail(AlreadyDone) <==> |a.cattle| > 0 && |SelectedLines(a.candidates)| > 0 && a.state == Done
    ensures r.Fail? && r.error.AlreadyAllocated? <==>
      && |a.cattle| > 0 && |SelectedLines(a.candidates)| > 0 && a.state == Draft
      && exists l :: l in SelectedLines(a.candidates) && l.id in HistoryLines(history)
    ensures r == Fail(NonPositiveTotal) <==>
      && |a.cattle| > 0 && |SelectedLines(a.candidates)| > 0 && a.state == Draft
      && (forall l :: l in SelectedLines(a.candidates) ==> l.id !in HistoryLines(history))
      && Total(a) <= 0.0
    ensures r == Fail(NoValidBasis) <==>
      && |a.cattle| > 0 && |SelectedLines(a.candidates)| > 0 && a.state == Draft
      && (forall l :: l in SelectedLines(a.candidates) ==> l.id !in HistoryLines(history))
      && Total(a) > 0.0
      && FactorSum(Bases(a, herd, weights, today)) <= 0.0
  {
    var lines := SelectedLines(a.candidates);
    if |a.cattle| == 0 then Fail(NoCattle)
    else if |lines| == 0 then Fail(NoLines)
    else if a.state == Done then Fail(AlreadyDone)
    else if |AlreadyAllocatedLines(lines, history)| > 0 then
      var already := AlreadyAllocatedLines(lines, history);
      assert already[0] in already;
      assert a.state == Draft && already[0] in lines && already[0].id in HistoryLines(history);
      Fail(AlreadyAllocated(Names(already)))
    else
      assert a.state == Draft;
      if Total(a) <= 0.0 then Fail(NonPositiveTotal)
      else if FactorSum(Bases(a, herd, weights, today)) <= 0.0 then Fail(NoValidBasis)
      else Pass
  }

  /**
   * Allocating a batch. Refused, in this order: no animals, no selected line, already done, a
   * selected line already in cost history (naming exactly those lines), a total not above zero,
   * a factor sum not above zero, and a line whose eligible animals' factors do not add up to
   * something positive. Otherwise the rows are emitted and the batch is done.
   */
  function Allocate(a: Allocation, herd: map<nat, Animal>, weights: seq<WeightEntry>, history: seq<CostRow>, today: int)
    : (r: Result<(Allocation, seq<CostRow>), AllocationError>)
    requires Targets(herd, a.cattle)
    ensures |a.cattle| == 0 ==> r == Err(NoCattle)
    ensures |a.cattle| > 0 && |SelectedLines(a.candidates)| == 0 ==> r == Err(NoLines)
    ensures |a.cattle| > 0 && |SelectedLines(a.candidates)| > 0 && a.state == Done ==> r == Err(AlreadyDone)
    ensures r.Err? && r.error.AlreadyAllocated? ==>
      && |r.error.names| > 0
      && forall s :: s in r.error.names <==>
           exists l :: l in SelectedLines(a.candidates) && l.id in HistoryLines(history) && l.displayName == s
    ensures |a.cattle| > 0 && a.state == Draft
            && (exists l :: l in SelectedLines(a.candidates) && l.id in HistoryLines(history))
            ==> r.Err? && r.error.AlreadyAllocated?
    ensures r == Err(NonPositiveTotal) ==> Total(a) <= 0.0
    ensures r == Err(NoValidBasis) ==>
      FactorSum(Bases(a, herd, weights, today)) <= 0.0
      || exists l :: l in SelectedLines(a.candidates) && !BasisOk(Bases(a, herd, weights, today), l)
    ensures r.Ok? ==>
      && a.state == Draft && |a.cattle| > 0 && |SelectedLines(a.candidates)| > 0
      && (forall l :: l in SelectedLines(a.candidates) ==> l.id !in HistoryLines(history))
      && Total(a) > 0.0
      && FactorSum(Bases(a, herd, weights, today)) > 0.0
      && AllBasesOk(Bases(a, herd, weights, today), SelectedLines(a.candidates))
      && r.value.0 == a.(state := Done)
      && r.value.1 == AllRows(a, SelectedLines(a.candidates), Bases(a, herd, weights, today))
    ensures Precheck(a, herd, weights, history, today).Fail? ==> r == Err(Precheck(a, herd, weights, history, today).error)
    ensures Precheck(a, herd, weights, history, today).Pass? ==>
      (r.Ok? <==> AllBasesOk(Bases(a, herd, weights, today), SelectedLines(a.candidates)))
    ensures Precheck(a, herd, weights, history, today).Pass? && r.Err? ==> r.error == NoValidBasis
  {
    var lines := SelectedLines(a.candidates);
    var bs := Bases(a, herd, weights, today);
    match Precheck(a, herd, weights, history, today)
    case Fail(e) =>
      assert e.AlreadyAllocated? ==> e.names == Names(AlreadyAllocatedLines(lines, history));
      Err(e)
    case Pass =>
      if !AllBasesOk(bs, lines) then Err(NoValidBasis)
      else Ok((a.(state := Done), AllRows(a, lines, bs)))
  }

  // ---------------------------------------------------------------------------------------------
  // The split as written, without a per-line guard

  /**
   * The rows of all lines as the split is written: the per-line factor sum is never checked,
   * so a line whose eligible animals' factors add up to exactly zero raises a division by zero
   * (and the enclosing transaction writes nothing).
   */
  function AllRowsAsWritten(a: Allocation, lines: seq<InvoiceLine>, bs: seq<Basis>): (r: Result<seq<CostRow>, AllocationError>)
    ensures r.Err? ==>
      exists l :: l in lines && r.error == DivisionByZero(l.id) && |Eligible(bs, l)| > 0 && FactorSum(Eligible(bs, l)) == 0.0
    ensures r.Ok? <==> forall i :: 0 <= i < |lines| ==> |Eligible(bs, lines[i])| == 0 || FactorSum(Eligible(bs, lines[i])) != 0.0
  {
    if |lines| == 0 then Ok([])
    else
      assert forall l :: l in lines[1..] ==> l in lines;
      assert forall i :: 1 <= i < |lines| ==> lines[i] == lines[1..][i - 1];
      var elig := Eligible(bs, lines[0]);
      if |elig| == 0 then AllRowsAsWritten(a, lines[1..], bs)
      else
        var eligibleSum := FactorSum(elig);
        if eligibleSum == 0.0 then Err(DivisionByZero(lines[0].id))
        else
          match AllRowsAsWritten(a, lines[1..], bs)
          case Err(e) => Err(e)
          case Ok(rest) => Ok(LineRows(a, lines[0], elig, eligibleSum) + rest)
  }

  /** Allocation as written: the same checks, then the unguarded split. */
  function AllocateAsWritten(a: Allocation, herd: map<nat, Animal>, weights: seq<WeightEntry>, history: seq<CostRow>, today: int)
    : (r: Result<(Allocation, seq<CostRow>), AllocationError>)
    requires Targets(herd, a.cattle)
    ensures r.Err? && r.error.DivisionByZero? ==>
      && Precheck(a, herd, weights, history, today).Pass?
      && exists l :: l in SelectedLines(a.candidates) && r.error.line == l.id
           && |Eligible(Bases(a, herd, weights, today), l)| > 0
           && FactorSum(Eligible(Bases(a, herd, weights, today), l)) == 0.0
    ensures r.Ok? ==> Precheck(a, herd, weights, history, today).Pass? && r.value.0 == a.(state := Done)
    ensures Precheck(a, herd, weights, history, today).Fail? ==> r == Err(Precheck(a, herd, weights, history, today).error)
    ensures Precheck(a, herd, weights, history, today).Pass? ==>
      (r.Ok? <==> forall l :: l in SelectedLines(a.candidates) ==>
                    |Eligible(Bases(a, herd, weights, today), l)| == 0 || FactorSum(Eligible(Bases(a, herd, weights, today), l)) != 0.0)
  {
    match Precheck(a, herd, weights, history, today)
    case Fail(e) => Err(e)
    case Pass =>
      match AllRowsAsWritten(a, SelectedLines(a.candidates), Bases(a, herd, weights, today))
      case Err(e) => Err(e)
      case Ok(rows) => Ok((a.(state := Done), rows))
  }
}

=== FILE: movement.dfy ===
/**
 * The bulk movement engine: a draft batch of one movement type (weight reading, health event,
 * retirement, reclassification) applied to a set of animals, leaving one audit snapshot row per
 * processed animal.
 */
module Movement {
  import opened Common
  import opened Records
  import opened WeightControl
  import opened Cattle

  datatype MovementType = WeightUpdate | HealthRecord | Retirement | Reclassification

  datatype MovementState = Draft | Applied

  /** A movement batch; the payload fields that matter depend on `movementType`. */
  datatype Movement = Movement(
    id: nat,
    name: string,
    date: int,
    movementType: MovementType,
    cattle: seq<nat>,
    notes: Option<string>,
    state: MovementState,
    weight: real,
    healthKind: Option<HealthKind>,
    healthDescription: Option<string>,
    healthVeterinarian: Option<string>,
    retirementReason: Option<Reason>,
    retirementNotes: Option<string>,
    newCategory: Option<Category>)

  /** The audit snapshot of one animal under one applied movement. */
  datatype HistoryRow = HistoryRow(
    movement: nat,
    cattle: nat,
    date: int,
    movementType: MovementType,
    notes: Option<string>,
    fromCategory: Category,
    toCategory: Category,
    fromState: State,
    toState: State,
    weight: real,
    healthKind: Option<HealthKind>,
    healthDescription: Option<string>,
    healthVeterinarian: Option<string>,
    retirementReason: Option<Reason>,
    retirementNotes: Option<string>)

  /**
   * The records a movement reads and writes: the animals by id, the weight ledger (with the id
   * the next reading will get), the health ledger and the movement history.
   */
  datatype Herd = Herd(
    animals: map<nat, Animal>,
    weights: seq<WeightEntry>,
    nextWeightId: nat,
    health: seq<HealthEvent>,
    history: seq<HistoryRow>)

  datatype MovementError =
    | MissingWeight
    | MissingHealthData
    | MissingReason
    | MissingCategory
    | AlreadyApplied(name: string)
    | NoCattle

  // ---------------------------------------------------------------------------------------------
  // Validation

  /** The per-type payload constraint, checked whenever a movement is saved. */
  function CheckRequiredByType(m: Movement): (r: Outcome<MovementError>)
    ensures m.movementType == WeightUpdate ==> (r.Pass? <==> m.weight > 0.0) && (r.Fail? ==> r.error == MissingWeight)
    ensures m.movementType == HealthRecord ==>
      (r.Pass? <==> m.healthKind.Some? && Present(m.healthDescription)) && (r.Fail? ==> r.error == MissingHealthData)
    ensures m.movementType == Retirement ==>
      (r.Pass? <==> m.retirementReason.Some?) && (r.Fail? ==> r.error == MissingReason)
    ensures m.movementType == Reclassification ==>
      (r.Pass? <==> m.newCategory.Some?) && (r.Fail? ==> r.error == MissingCategory)
  {
    match m.movementType
    case WeightUpdate => if m.weight <= 0.0 then Fail(MissingWeight) else Pass
    case HealthRecord =>
      if m.healthKind.None? || !Present(m.healthDescription) then Fail(MissingHealthData) else Pass
    case Retirement => if m.retirementReason.None? then Fail(MissingReason) else Pass
    case Reclassification => if m.newCategory.None? then Fail(MissingCategory) else Pass
  }

  /** A saved movement: its payload passed the per-type constraint. */
  predicate Saved(m: Movement) {
    CheckRequiredByType(m).Pass?
  }

  /** Every animal the movement names exists. */
  predicate Targets(h: Herd, ids: seq<nat>) {
    forall i :: 0 <= i < |ids| ==> ids[i] in h.animals
  }

  // ---------------------------------------------------------------------------------------------
  // Application

  /**
   * What a snapshot row copies from its movement besides id, date and type: the notes, and the
   * payload of the movement's own type (the weight; the health kind, description and
   * veterinarian; the reason and the retirement notes, falling back to the general notes). The
   * fields of the other types stay empty.
   */
  predicate Payload(m: Movement, row: HistoryRow) {
    && row.notes == m.notes
    && row.weight == (if m.movementType == WeightUpdate then m.weight else 0.0)
    && (if m.movementType == HealthRecord
        then row.healthKind == m.healthKind && row.healthDescription == m.healthDescription
             && row.healthVeterinarian == m.healthVeterinarian
        else row.healthKind.None? && row.healthDescription.None? && row.healthVeterinarian.None?)
    && (if m.movementType == Retirement
        then row.retirementReason == m.retirementReason && row.retirementNotes == OrElse(m.retirementNotes, m.notes)
        else row.retirementReason.None? && row.retirementNotes.None?)
  }

  /** The snapshot row of animal `before`, which the movement turned into `after`. */
  function Snapshot(m: Movement, id: nat, before: Animal, after: Animal): (row: HistoryRow)
    ensures row.movement == m.id && row.cattle == id && row.date == m.date && row.movementType == m.movementType
    ensures row.fromCategory == before.category && row.fromState == before.state
    ensures row.toCategory == after.category && row.toState == after.state
    ensures Payload(m, row)
  {
    var row := HistoryRow(m.id, id, m.date, m.movementType, m.notes, before.category, after.category,
                          before.state, after.state, 0.0, None, None, None, None, None);
    match m.movementType
    case WeightUpdate => row.(weight := m.weight)
    case HealthRecord =>
      row.(healthKind := m.healthKind, healthDescription := m.healthDescription, healthVeterinarian := m.healthVeterinarian)
    case Retirement => row.(retirementReason := m.retirementReason, retirementNotes := OrElse(m.retirementNotes, m.notes))
    case Reclassification => row
  }

  /** The weight reading a weight movement writes for one animal. */
  function Reading(m: Movement, id: nat, entryId: nat): WeightEntry {
    WeightEntry(entryId, id, Some(m.date), m.weight, m.notes)
  }

  /** The side effect of the movement on one animal, plus its snapshot row. */
  function Step(h: Herd, m: Movement, id: nat): (r: Herd)
    requires Saved(m) && id in h.animals
    ensures r.animals.Keys == h.animals.Keys
    ensures forall x :: x in h.animals && x != id ==> r.animals[x] == h.animals[x]
    ensures m.movementType == Reclassification && h.animals[id].category == m.newCategory.value ==> r == h
    ensures !(m.movementType == Reclassification && h.animals[id].category == m.newCategory.value) ==>
      r.history == h.history + [Snapshot(m, id, h.animals[id], r.animals[id])]
  {
    var a := h.animals[id];
    match m.movementType
    case WeightUpdate =>
      h.(weights := h.weights + [Reading(m, id, h.nextWeightId)], nextWeightId := h.nextWeightId + 1,
         history := h.history + [Snapshot(m, id, a, a)])
    case HealthRecord =>
      var event := HealthEvent(id, m.date, m.healthKind.value, m.healthDescription.value, m.healthVeterinarian, m.notes);
      h.(health := h.health + [event], history := h.history + [Snapshot(m, id, a, a)])
    case Retirement =>
      var a' := a.(state := Retired, reason := m.retirementReason, retirementNotes := OrElse(m.retirementNotes, m.notes));
      h.(animals := h.animals[id := a'], history := h.history + [Snapshot(m, id, a, a')])
    case Reclassification =>
      if a.category == m.newCategory.value then h
      else
        var a' := a.(category := m.newCategory.value);
        h.(animals := h.animals[id := a'], history := h.history + [Snapshot(m, id, a, a')])
  }

  /** Processes the animals in order; the rows accumulate in the same order. */
  function ApplyToCattle(h: Herd, m: Movement, ids: seq<nat>): (r: Herd)
    requires Saved(m) && Targets(h, ids)
    ensures r.animals.Keys == h.animals.Keys
    ensures |r.history| >= |h.history| && r.history[..|h.history|] == h.history
  {
    if |ids| == 0 then h
    else
      var n := |ids| - 1;
      var mid := ApplyToCattle(h, m, ids[..n]);
      var r := Step(mid, m, ids[n]);
      assert r.history[..|mid.history|] == mid.history;
      assert r.history[..|h.history|] == mid.history[..|h.history|];
      r
  }

  /**
   * Applying a movement: an applied movement cannot be applied again, one without animals is
   * refused, otherwise every animal is processed and the movement becomes applied.
   */
  function Apply(h: Herd, m: Movement): (r: Result<(Herd, Movement), MovementError>)
    requires Saved(m) && Targets(h, m.cattle)
    ensures r == Err(AlreadyApplied(m.name)) <==> m.state == Applied
    ensures r == Err(NoCattle) <==> m.state == Draft && |m.cattle| == 0
    ensures r.Ok? <==> m.state == Draft && |m.cattle| > 0
    ensures r.Ok? ==> r.value.1 == m.(state := Applied) && r.value.0 == ApplyToCattle(h, m, m.cattle)
    ensures r.Ok? ==> r.value.0.animals.Keys == h.animals.Keys
  {
    if m.state == Applied then Err(AlreadyApplied(m.name))
    else if |m.cattle| == 0 then
      assert m.state == Draft;
      Err(NoCattle)
    else
      assert m.state == Draft;
      Ok((ApplyToCattle(h, m, m.cattle), m.(state := Applied)))
  }

  // ---------------------------------------------------------------------------------------------
  // Properties of the per-type side effects

  /** A movement changes only the animals it lists. */
  lemma {:induction false} UnlistedUnchanged(h: Herd, m: Movement, ids: seq<nat>, id: nat)
    requires Saved(m) && Targets(h, ids) && id in h.animals && id !in ids
    ensures ApplyToCattle(h, m, ids).animals[id] == h.animals[id]
  {
    if |ids| > 0 {
      var n := |ids| - 1;
      assert id !in ids[..n] && id != ids[n];
      UnlistedUnchanged(h, m, ids[..n], id);
    }
  }

  /** The readings a weight movement writes, one per processed animal, numbered from `start`. */
  function Readings(m: Movement, ids: seq<nat>, start: nat): seq<WeightEntry> {
    seq(|ids|, i requires 0 <= i < |ids| => Reading(m, ids[i], start + i))
  }

  /**
   * A weight movement appends exactly one reading per animal, carrying the movement's date and
   * weight, and leaves the animals and the health ledger alone.
   */
  lemma {:induction false} WeightMovementAppendsReadings(h: Herd, m: Movement, ids: seq<nat>)
    requires Saved(m) && Targets(h, ids) && m.movementType == WeightUpdate
    ensures ApplyToCattle(h, m, ids).weights == h.weights + Readings(m, ids, h.nextWeightId)
    ensures ApplyToCattle(h, m, ids).nextWeightId == h.nextWeightId + |ids|
    ensures ApplyToCattle(h, m, ids).animals == h.animals
    ensures ApplyToCattle(h, m, ids).health == h.health
    ensures |ApplyToCattle(h, m, ids).history| == |h.history| + |ids|
  {
    if |ids| == 0 {
      assert h.weights + Readings(m, ids, h.nextWeightId) == h.weights;
    } else {
      var n := |ids| - 1;
      WeightMovementAppendsReadings(h, m, ids[..n]);
      assert Readings(m, ids, h.nextWeightId) == Readings(m, ids[..n], h.nextWeightId) + [Reading(m, ids[n], h.nextWeightId + n)];
    }
  }

  /** The health events a health movement writes, one per processed animal. */
  function Events(m: Movement, ids: seq<nat>): seq<HealthEvent>
    requires Saved(m) && m.movementType == HealthRecord
  {
    seq(|ids|, i requires 0 <= i < |ids| =>
      HealthEvent(ids[i], m.date, m.healthKind.value, m.healthDescription.value, m.healthVeterinarian, m.notes))
  }

  /**
   * A health movement appends exactly one health event per animal, copying the kind, the
   * description and the veterinarian, and leaves the animals and the weight ledger alone.
   */
  lemma {:induction false} HealthMovementAppendsEvents(h: Herd, m: Movement, ids: seq<nat>)
    requires Saved(m) && Targets(h, ids) && m.movementType == HealthRecord
    ensures ApplyToCattle(h, m, ids).health == h.health + Events(m, ids)
    ensures ApplyToCattle(h, m, ids).animals == h.animals
    ensures ApplyToCattle(h, m, ids).weights == h.weights
    ensures |ApplyToCattle(h, m, ids).history| == |h.history| + |ids|
  {
    if |ids| == 0 {
      assert h.health + Events(m, ids) == h.health;
    } else {
      var n := |ids| - 1;
      HealthMovementAppendsEvents(h, m, ids[..n]);
      assert Events(m, ids) == Events(m, ids[..n]) + [Events(m, ids)[n]];
    }
  }

  /** What a retirement movement makes of one animal. */
  function Retire(m: Movement, a: Animal): Animal {
    a.(state := Retired, reason := m.retirementReason, retirementNotes := OrElse(m.retirementNotes, m.notes))
  }

  /** Every movement type except reclassification writes one snapshot row per listed animal. */
  lemma {:induction false} OneRowPerListedAnimal(h: Herd, m: Movement, ids: seq<nat>)
    requires Saved(m) && Targets(h, ids) && m.movementType != Reclassification
    ensures |ApplyToCattle(h, m, ids).history| == |h.history| + |ids|
  {
    if |ids| > 0 {
      var n := |ids| - 1;
      OneRowPerListedAnimal(h, m, ids[..n]);
      assert ApplyToCattle(h, m, ids) == Step(ApplyToCattle(h, m, ids[..n]), m, ids[n]);
    }
  }

  /** One retirement step retires its animal and touches neither ledger. */
  lemma RetireStep(h: Herd, m: Movement, id: nat)
    requires Saved(m) && id in h.animals && m.movementType == Retirement
    ensures Step(h, m, id).animals == h.animals[id := Retire(m, h.animals[id])]
    ensures Step(h, m, id).weights == h.weights && Step(h, m, id).health == h.health
  {
    var a := h.animals[id];
    assert Step(h, m, id).animals == h.animals[id := a.(state := Retired, reason := m.retirementReason,
                                                      retirementNotes := OrElse(m.retirementNotes, m.notes))];
  }

  /** The listed part of a retirement: each listed animal is retired, and neither ledger changes. */
  lemma {:induction false} RetirementRetiresEach(h: Herd, m: Movement, ids: seq<nat>)
    requires Saved(m) && Targets(h, ids) && m.movementType == Retirement
    ensures forall i :: 0 <= i < |ids| ==> ApplyToCattle(h, m, ids).animals[ids[i]] == Retire(m, h.animals[ids[i]])
    ensures ApplyToCattle(h, m, ids).weights == h.weights && ApplyToCattle(h, m, ids).health == h.health
  {
    if |ids| > 0 {
      var n := |ids| - 1;
      RetirementRetiresEach(h, m, ids[..n]);
      var mid := ApplyToCattle(h, m, ids[..n]);
      var r := ApplyToCattle(h, m, ids);
      assert r == Step(mid, m, ids[n]);
      RetireStep(mid, m, ids[n]);
      var hn := h.animals[ids[n]];
      assert Retire(m, mid.animals[ids[n]]) == Retire(m, hn) by {
        if ids[n] in ids[..n] {
          var j :| 0 <= j < n && ids[..n][j] == ids[n];
        } else {
          UnlistedUnchanged(h, m, ids[..n], ids[n]);
        }
      }
      forall i | 0 <= i < n && ids[i] != ids[n] ensures r.animals[ids[i]] == Retire(m, h.animals[ids[i]]) {
        assert ids[i] == ids[..n][i];
      }
    }
  }

  /**
   * A retirement movement retires every listed animal with the movement's reason (its notes
   * falling back to the general notes) and changes no other animal and no ledger.
   */
  lemma RetirementRetiresListed(h: Herd, m: Movement, ids: seq<nat>)
    requires Saved(m) && Targets(h, ids) && m.movementType == Retirement
    ensures forall i :: 0 <= i < |ids| ==> ApplyToCattle(h, m, ids).animals[ids[i]] == Retire(m, h.animals[ids[i]])
    ensures forall id :: id in h.animals && id !in ids ==> ApplyToCattle(h, m, ids).animals[id] == h.animals[id]
    ensures ApplyToCattle(h, m, ids).weights == h.weights && ApplyToCattle(h, m, ids).health == h.health
    ensures |ApplyToCattle(h, m, ids).history| == |h.history| + |ids|
  {
    RetirementRetiresEach(h, m, ids);
    forall id | id in h.animals && id !in ids ensures ApplyToCattle(h, m, ids).animals[id] == h.animals[id] {
      UnlistedUnchanged(h, m, ids, id);
    }
    OneRowPerListedAnimal(h, m, ids);
  }

  /** The listed animals whose category differs from `c`, in order: those a reclassification moves. */
  function Movers(animals: map<nat, Animal>, ids: seq<nat>, c: Category): (r: seq<nat>)
    requires forall i :: 0 <= i < |ids| ==> ids[i] in animals
  {
    if |ids| == 0 then []
    else
      var n := |ids| - 1;
      Movers(animals, ids[..n], c) + (if animals[ids[n]].category != c then [ids[n]] else [])
  }

  /** Applying to a non-empty list is applying to all but the last animal, then one step. */
  lemma ApplyLast(h: Herd, m: Movement, ids: seq<nat>)
    requires Saved(m) && Targets(h, ids) && |ids| > 0
    ensures Targets(h, ids[..|ids| - 1])
    ensures ApplyToCattle(h, m, ids) == Step(ApplyToCattle(h, m, ids[..|ids| - 1]), m, ids[|ids| - 1])
  {
    assert forall i :: 0 <= i < |ids| - 1 ==> ids[..|ids| - 1][i] == ids[i];
  }

  /** One reclassification step sets the animal's category (a no-op when it already has it). */
  lemma ReclassifyStep(h: Herd, m: Movement, id: nat)
    requires Saved(m) && id in h.animals && m.movementType == Reclassification
    ensures Step(h, m, id).animals == h.animals[id := h.animals[id].(category := m.newCategory.value)]
    ensures Step(h, m, id).weights == h.weights && Step(h, m, id).health == h.health
  {
    var a := h.animals[id];
    if a.category == m.newCategory.value {
      assert a.(category := m.newCategory.value) == a;
      assert h.animals[id := a] == h.animals;
    }
  }

  /** A reclassification gives every listed animal the new category and leaves the rest alone. */
  lemma {:induction false} ReclassificationSetsCategory(h: Herd, m: Movement, ids: seq<nat>)
    requires Saved(m) && Targets(h, ids) && m.movementType == Reclassification
    ensures forall i :: 0 <= i < |ids| ==>
      ApplyToCattle(h, m, ids).animals[ids[i]] == h.animals[ids[i]].(category := m.newCategory.value)
    ensures forall id :: id in h.animals && id !in ids ==> ApplyToCattle(h, m, ids).animals[id] == h.animals[id]
    ensures ApplyToCattle(h, m, ids).weights == h.weights && ApplyToCattle(h, m, ids).health == h.health
  {
    var c := m.newCategory.value;
    if |ids| > 0 {
      var n := |ids| - 1;
      var front := ids[..n];
      ReclassificationSetsCategory(h, m, front);
      ApplyLast(h, m, ids);
      var mid := ApplyToCattle(h, m, front);
      ReclassifyStep(mid, m, ids[n]);
      var hn := h.animals[ids[n]];
      assert mid.animals[ids[n]].(category := c) == hn.(category := c) by {
        if ids[n] in front {
          var j :| 0 <= j < n && front[j] == ids[n];
        }
      }
      var moved := mid.animals[ids[n] := hn.(category := c)];
      assert ApplyToCattle(h, m, ids).animals == moved;
      forall i | 0 <= i < |ids| ensures moved[ids[i]] == h.animals[ids[i]].(category := c) {
        if i < n && ids[i] != ids[n] {
          assert ids[i] == front[i];
        }
      }
      forall id | id in h.animals && id !in ids ensures moved[id] == h.animals[id] {
        assert id !in front;
      }
    }
  }

  /** The movers are exactly the listed animals outside the target category. */
  lemma {:induction false} MoversAreUnsettled(animals: map<nat, Animal>, ids: seq<nat>, c: Category, x: nat)
    requires forall i :: 0 <= i < |ids| ==> ids[i] in animals
    ensures x in Movers(animals, ids, c) <==> x in ids && animals[x].category != c
  {
    if |ids| > 0 {
      var n := |ids| - 1;
      MoversAreUnsettled(animals, ids[..n], c, x);
      assert x in ids <==> x in ids[..n] || x == ids[n] by {
        if x in ids {
          var i :| 0 <= i < |ids| && ids[i] == x;
          if i < n { assert ids[..n][i] == x; }
        }
      }
    }
  }

  /**
   * Animals already in the target category are skipped: they get no history row, and exactly the
   * others get one, in order.
   */
  lemma {:induction false} ReclassificationSkipsSettled(h: Herd, m: Movement, ids: seq<nat>)
    requires Saved(m) && Targets(h, ids) && m.movementType == Reclassification && Distinct(ids)
    ensures |ApplyToCattle(h, m, ids).history| == |h.history| + |Movers(h.animals, ids, m.newCategory.value)|
    ensures forall k :: 0 <= k < |Movers(h.animals, ids, m.newCategory.value)| ==>
      ApplyToCattle(h, m, ids).history[|h.history| + k].cattle == Movers(h.animals, ids, m.newCategory.value)[k]
  {
    var c := m.newCategory.value;
    if |ids| > 0 {
      var n := |ids| - 1;
      var front := ids[..n];
      assert Distinct(front);
      ReclassificationSkipsSettled(h, m, front);
      ApplyLast(h, m, ids);
      var mid := ApplyToCattle(h, m, front);
      assert ids[n] !in front;
      UnlistedUnchanged(h, m, front, ids[n]);
      var r := Step(mid, m, ids[n]);
      var base := |h.history|;
      var mv := Movers(h.animals, front, c);
      var all := Movers(h.animals, ids, c);
      if h.animals[ids[n]].category != c {
        assert all == mv + [ids[n]];
        var row := Snapshot(m, ids[n], mid.animals[ids[n]], r.animals[ids[n]]);
        assert r.history == mid.history + [row];
        forall k | 0 <= k < |all| ensures r.history[base + k].cattle == all[k] {
          if k < |mv| {
            assert r.history[base + k] == mid.history[base + k];
          }
        }
      } else {
        assert all == mv;
      }
    }
  }

  /** A snapshot row of `m` whose "from" values come from `before` and "to" values from `after`. */
  predicate Bracketed(m: Movement, before: map<nat, Animal>, after: map<nat, Animal>, ids: seq<nat>, row: HistoryRow) {
    && row.cattle in ids && row.cattle in before && row.cattle in after
    && row.movement == m.id && row.date == m.date && row.movementType == m.movementType
    && row.fromCategory == before[row.cattle].category && row.fromState == before[row.cattle].state
    && row.toCategory == after[row.cattle].category && row.toState == after[row.cattle].state
  }

  /**
   * Every snapshot row takes its "from" values before its animal was changed and its "to" values
   * after: against the herd before and after the whole movement, when no animal is listed twice.
   */
  lemma {:induction false} SnapshotsBracketTheChange(h: Herd, m: Movement, ids: seq<nat>)
    requires Saved(m) && Targets(h, ids) && Distinct(ids)
    ensures forall k :: |h.history| <= k < |ApplyToCattle(h, m, ids).history| ==>
      Bracketed(m, h.animals, ApplyToCattle(h, m, ids).animals, ids, ApplyToCattle(h, m, ids).history[k])
    ensures forall id :: id in h.animals && id !in ids ==> ApplyToCattle(h, m, ids).animals[id] == h.animals[id]
  {
    if |ids| > 0 {
      var n := |ids| - 1;
      var front := ids[..n];
      assert Distinct(front);
      SnapshotsBracketTheChange(h, m, front);
      ApplyLast(h, m, ids);
      var mid := ApplyToCattle(h, m, front);
      var id := ids[n];
      assert id !in front;
      assert forall x :: x in front ==> x in ids;
      StepKeepsBracketed(m, h.animals, mid, front, ids, id, |h.history|);
      var r := Step(mid, m, id);
      forall x | x in h.animals && x !in ids ensures r.animals[x] == h.animals[x] {
        assert x !in front && x != id;
      }
    }
  }

  /**
   * One more step, on a listed animal not yet processed and still as it was, keeps every row from
   * `lo` on bracketed against the longer list, the step's own row included.
   */
  lemma StepKeepsBracketed(m: Movement, before: map<nat, Animal>, mid: Herd, front: seq<nat>, ids: seq<nat>, id: nat, lo: nat)
    requires Saved(m) && id in mid.animals && id in before && before[id] == mid.animals[id] && id !in front
    requires id in ids && forall x :: x in front ==> x in ids
    requires lo <= |mid.history|
    requires forall k :: lo <= k < |mid.history| ==> Bracketed(m, before, mid.animals, front, mid.history[k])
    ensures forall k :: lo <= k < |Step(mid, m, id).history| ==>
      Bracketed(m, before, Step(mid, m, id).animals, ids, Step(mid, m, id).history[k])
  {
    var r := Step(mid, m, id);
    OldRowsStayBracketed(m, before, mid.animals, r.animals, front, ids, mid.history, r.history, lo);
    if |r.history| > |mid.history| {
      assert r.history[|mid.history|] == Snapshot(m, id, mid.animals[id], r.animals[id]);
    }
    forall k | lo <= k < |r.history| ensures Bracketed(m, before, r.animals, ids, r.history[k]) {
      if k >= |mid.history| {
        assert k == |mid.history|;
      }
    }
  }

  /**
   * Rows bracketed against the herd part-way through stay bracketed against the final herd when
   * the animals they name are left alone and the list only grows.
   */
  lemma OldRowsStayBracketed(m: Movement, before: map<nat, Animal>, mid: map<nat, Animal>, after: map<nat, Animal>,
                             front: seq<nat>, ids: seq<nat>, rows: seq<HistoryRow>, rows': seq<HistoryRow>, lo: nat)
    requires forall k :: lo <= k < |rows| ==> Bracketed(m, before, mid, front, rows[k])
    requires |rows'| >= |rows| && rows'[..|rows|] == rows
    requires forall x :: x in front ==> x in ids
    requires forall x :: x in front && x in mid ==> x in after && after[x] == mid[x]
    ensures forall k :: lo <= k < |rows| ==> Bracketed(m, before, after, ids, rows'[k])
  {
    forall k | lo <= k < |rows| ensures Bracketed(m, before, after, ids, rows'[k]) {
      assert rows'[k] == rows[k];
    }
  }

  /** Every snapshot row a movement writes carries the movement's notes and its type's payload. */
  lemma {:induction false} SnapshotsCarryPayload(h: Herd, m: Movement, ids: seq<nat>)
    requires Saved(m) && Targets(h, ids)
    ensures forall k :: |h.history| <= k < |ApplyToCattle(h, m, ids).history| ==>
      && ApplyToCattle(h, m, ids).history[k].movement == m.id
      && Payload(m, ApplyToCattle(h, m, ids).history[k])
  {
    if |ids| > 0 {
      var n := |ids| - 1;
      SnapshotsCarryPayload(h, m, ids[..n]);
      var mid := ApplyToCattle(h, m, ids[..n]);
      var r := ApplyToCattle(h, m, ids);
      assert r == Step(mid, m, ids[n]);
      forall k | |h.history| <= k < |r.history| ensures r.history[k].movement == m.id && Payload(m, r.history[k]) {
        if k < |mid.history| {
          assert r.history[k] == mid.history[k];
        }
      }
    }
  }

  /**
   * A saved movement never breaks the ledgers' own constraints: readings it writes are positive
   * and dated, and every animal it retires carries a reason.
   */
  lemma {:induction false} AppliedMovementKeepsConstraints(h: Herd, m: Movement, ids: seq<nat>)
    requires Saved(m) && Targets(h, ids)
    requires ValidLedger(h.weights)
    requires forall id :: id in h.animals ==> ReasonOk(h.animals[id])
    ensures ValidLedger(ApplyToCattle(h, m, ids).weights)
    ensures forall id :: id in ApplyToCattle(h, m, ids).animals ==> ReasonOk(ApplyToCattle(h, m, ids).animals[id])
  {
    if |ids| > 0 {
      AppliedMovementKeepsConstraints(h, m, ids[..|ids| - 1]);
    }
  }

  /** Every reading id lies below the id the next reading will get. */
  predicate ReadingIdsBelow(h: Herd) {
    forall i :: 0 <= i < |h.weights| ==> h.weights[i].id < h.nextWeightId
  }

  /**
   * A weight movement dated no earlier than any of an animal's readings makes the movement's
   * weight that animal's current weight.
   */
  lemma WeightMovementSetsCurrentWeight(h: Herd, m: Movement, ids: seq<nat>, id: nat, today: int)
    requires Saved(m) && Targets(h, ids) && m.movementType == WeightUpdate
    requires ReadingIdsBelow(h)
    requires id in ids
    requires forall e :: e in h.weights && e.cattle == id ==> SortDate(e, today) <= m.date
    ensures CurrentWeight(ApplyToCattle(h, m, ids).weights, id, today) == m.weight
  {
    WeightMovementAppendsReadings(h, m, ids);
    var added := Readings(m, ids, h.nextWeightId);
    ReadingsShape(m, ids, h.nextWeightId);
    var i :| 0 <= i < |ids| && ids[i] == id;
    OlderReadingsSortBefore(h, added[i], id, today);
    NewestReadingWins(h.weights, added, id, today, m.weight, i);
  }

  /** The readings of a weight movement: one per animal, in order, numbered from `start`. */
  lemma ReadingsShape(m: Movement, ids: seq<nat>, start: nat)
    ensures |Readings(m, ids, start)| == |ids|
    ensures forall k :: 0 <= k < |ids| ==>
      && Readings(m, ids, start)[k].cattle == ids[k] && Readings(m, ids, start)[k].id == start + k
      && Readings(m, ids, start)[k].date == Some(m.date) && Readings(m, ids, start)[k].weight == m.weight
  {
  }

  /**
   * A reading numbered past the ledger and dated no earlier than the animal's readings sorts
   * after each of them.
   */
  lemma OlderReadingsSortBefore(h: Herd, reading: WeightEntry, id: nat, today: int)
    requires ReadingIdsBelow(h) && reading.id >= h.nextWeightId && reading.date.Some?
    requires forall e :: e in h.weights && e.cattle == id ==> SortDate(e, today) <= reading.date.value
    ensures forall e :: e in h.weights && e.cattle == id ==> KeyBefore(e, reading, today)
  {
    forall e | e in h.weights && e.cattle == id ensures KeyBefore(e, reading, today) {
      var j :| 0 <= j < |h.weights| && h.weights[j] == e;
    }
  }

  /**
   * Appending readings that all carry weight `w`, one of which sorts after every earlier reading
   * of the animal, makes `w` its current weight.
   */
  lemma NewestReadingWins(ledger: seq<WeightEntry>, added: seq<WeightEntry>, id: nat, today: int, w: real, i: nat)
    requires i < |added| && added[i].cattle == id
    requires forall k :: 0 <= k < |added| ==> added[k].weight == w
    requires forall e :: e in ledger && e.cattle == id ==> KeyBefore(e, added[i], today)
    ensures CurrentWeight(ledger + added, id, today) == w
  {
    var all := ledger + added;
    assert all[|ledger| + i] == added[i];
    var e :| e in all && e.cattle == id && CurrentWeight(all, id, today) == e.weight
      && forall e' :: e' in all && e'.cattle == id ==> !KeyBefore(e, e', today);
    assert !KeyBefore(e, added[i], today);
    assert e !in ledger;
    var j :| 0 <= j < |all| && all[j] == e;
    assert e == added[j - |ledger|];
  }
}

=== FILE: records.dfy ===
/**
 * Field-only record shapes: the herd category tag, the allocation method, health-event kinds,
 * supplier invoice lines and the immutable cost-history row.
 */
module Records {
  import opened Common

  /** A herd category. The model treats it as an opaque tag that is only compared for equality. */
  datatype Category = Category(tag: nat)

  /** How an allocation weighs the animals against each other. */
  datatype Method = Equal | ByWeight | ByAge

  /** The kinds of health event: vaccination, treatment, veterinary check-up, welfare. */
  datatype HealthKind = Vaccination | Treatment | Checkup | Welfare

  /** The type of the journal entry a line belongs to; only supplier invoices matter here. */
  datatype MoveType = SupplierInvoice | OtherMove

  /** The display type of a journal line: unset, a product line, or a section/note/tax line. */
  datatype DisplayType = NoDisplayType | ProductLine | OtherDisplay

  /** A journal line as the allocation engine reads it. */
  datatype InvoiceLine = InvoiceLine(
    id: nat,
    displayName: string,
    moveType: MoveType,
    posted: bool,
    displayType: DisplayType,
    company: nat,
    excludeFromInvoiceTab: bool,
    subtotal: real,
    category: Option<Category>)

  /** One animal's share of one invoice line, as written by one allocation batch. */
  datatype CostRow = CostRow(
    cattle: nat,
    line: nat,
    allocation: Option<nat>,
    date: int,
    amount: real,
    allocationMethod: Method,
    note: string)

  /** One entry of an animal's health ledger. */
  datatype HealthEvent = HealthEvent(
    cattle: nat,
    date: int,
    kind: HealthKind,
    description: string,
    veterinarian: Option<string>,
    notes: Option<string>)
}

=== FILE: weight_control.dfy ===
/** The weight ledger: dated readings per animal and the constraint that a weight is positive. */
module WeightControl {
  import opened Common

  /**
   * One weight reading. `date` is a required field; it is optional here so that a create call
   * that clears it explicitly, and the current-weight computation, which tolerates a missing
   * date, can be stated faithfully.
   */
  datatype WeightEntry = WeightEntry(id: nat, cattle: nat, date: Option<int>, weight: real, notes: Option<string>)

  datatype WeightError = MissingDate(entry: nat) | NonPositiveWeight(entry: nat)

  /** The weight constraint, run over every record of a written batch; the first bad record raises. */
  function CheckWeightPositive(batch: seq<WeightEntry>): (r: Outcome<WeightError>)
    ensures r.Pass? <==> forall i :: 0 <= i < |batch| ==> batch[i].weight > 0.0
    ensures r.Fail? ==>
      exists k :: 0 <= k < |batch| && batch[k].weight <= 0.0 && r.error == NonPositiveWeight(batch[k].id)
        && forall i :: 0 <= i < k ==> batch[i].weight > 0.0
  {
    if |batch| == 0 then Pass
    else if batch[0].weight <= 0.0 then Fail(NonPositiveWeight(batch[0].id))
    else
      var r := CheckWeightPositive(batch[1..]);
      assert r.Fail? ==> (exists k :: 1 <= k < |batch| && batch[k].weight <= 0.0 && r.error == NonPositiveWeight(batch[k].id)
                            && forall i :: 0 <= i < k ==> batch[i].weight > 0.0) by {
        if r.Fail? {
          var k :| 0 <= k < |batch[1..]| && batch[1..][k].weight <= 0.0 && r.error == NonPositiveWeight(batch[1..][k].id)
            && forall i :: 0 <= i < k ==> batch[1..][i].weight > 0.0;
          assert forall i :: 1 <= i < k + 1 ==> batch[i] == batch[1..][i - 1];
        }
      }
      r
  }

  /** The required-field check: every record of the batch carries a date. */
  function CheckRequired(batch: seq<WeightEntry>): (r: Outcome<WeightError>)
    ensures r.Pass? <==> forall i :: 0 <= i < |batch| ==> batch[i].date.Some?
    ensures r.Fail? ==> exists k :: 0 <= k < |batch| && batch[k].date.None? && r.error == MissingDate(batch[k].id)
  {
    if |batch| == 0 then Pass
    else if batch[0].date.None? then Fail(MissingDate(batch[0].id))
    else
      var r := CheckRequired(batch[1..]);
      assert r.Fail? ==> exists k :: 1 <= k < |batch| && batch[k].date.None? && r.error == MissingDate(batch[k].id) by {
        if r.Fail? {
          var k :| 0 <= k < |batch[1..]| && batch[1..][k].date.None? && r.error == MissingDate(batch[1..][k].id);
          assert batch[k + 1] == batch[1..][k];
        }
      }
      r
  }

  /** A ledger every record of which passed both checks. */
  predicate ValidLedger(ledger: seq<WeightEntry>) {
    forall i :: 0 <= i < |ledger| ==> ledger[i].date.Some? && ledger[i].weight > 0.0
  }

  /**
   * The date a create call passes for a reading: left out, so that the field default applies,
   * or given, possibly empty (an explicitly cleared date).
   */
  datatype DateVal = DefaultDate | SetDate(given: Option<int>)

  /** The values a create call passes for one reading. */
  datatype ReadingVals = ReadingVals(id: nat, cattle: nat, date: DateVal, weight: real, notes: Option<string>)

  /** The record the values become: a left-out date takes the field default, today. */
  function Fill(v: ReadingVals, today: int): (e: WeightEntry)
    ensures e.id == v.id && e.cattle == v.cattle && e.weight == v.weight && e.notes == v.notes
    ensures e.date.None? <==> v.date == SetDate(None)
    ensures v.date.DefaultDate? ==> e.date == Some(today)
  {
    WeightEntry(v.id, v.cattle, if v.date.DefaultDate? then Some(today) else v.date.given, v.weight, v.notes)
  }

  /** The records of a batch of values, in order. */
  function FillAll(vals: seq<ReadingVals>, today: int): (batch: seq<WeightEntry>)
    ensures |batch| == |vals|
    ensures forall i :: 0 <= i < |vals| ==> batch[i] == Fill(vals[i], today)
  {
    if |vals| == 0 then []
    else
      var rest := FillAll(vals[1..], today);
      assert forall i :: 1 <= i < |vals| ==> vals[i] == vals[1..][i - 1];
      [Fill(vals[0], today)] + rest
  }

  /**
   * Creating a batch of readings: left-out dates take today, then the required fields are
   * checked on insertion, then the weight constraint; either failure rejects the whole batch
   * and nothing is appended.
   */
  function Create(ledger: seq<WeightEntry>, vals: seq<ReadingVals>, today: int): (r: Result<seq<WeightEntry>, WeightError>)
    ensures r.Ok? <==> forall i :: 0 <= i < |vals| ==> vals[i].date != SetDate(None) && vals[i].weight > 0.0
    ensures r.Ok? ==> r.value == ledger + FillAll(vals, today)
    ensures r.Ok? ==> forall i :: 0 <= i < |vals| && vals[i].date.DefaultDate? ==> r.value[|ledger| + i].date == Some(today)
    ensures r.Ok? && ValidLedger(ledger) ==> ValidLedger(r.value)
    ensures r.Err? && r.error.MissingDate? ==> exists k :: 0 <= k < |vals| && vals[k].date == SetDate(None) && r.error.entry == vals[k].id
    ensures r.Err? && r.error.NonPositiveWeight? ==>
      && (forall i :: 0 <= i < |vals| ==> vals[i].date != SetDate(None))
      && exists k :: 0 <= k < |vals| && vals[k].weight <= 0.0 && r.error.entry == vals[k].id
  {
    var batch := FillAll(vals, today);
    match CheckRequired(batch)
    case Fail(e) => Err(e)
    case Pass =>
      match CheckWeightPositive(batch)
      case Fail(e) => Err(e)
      case Pass =>
        assert forall i :: |ledger| <= i < |ledger + batch| ==> (ledger + batch)[i] == batch[i - |ledger|];
        Ok(ledger + batch)
  }

  /** Validity of a ledger splits over concatenation, so the checks are per record. */
  lemma {:induction false} CheckSplits(a: seq<WeightEntry>, b: seq<WeightEntry>)
    ensures CheckWeightPositive(a + b).Pass? <==> CheckWeightPositive(a).Pass? && CheckWeightPositive(b).Pass?
  {
    var ab := a + b;
    assert forall i :: 0 <= i < |a| ==> ab[i] == a[i];
    assert forall i :: 0 <= i < |b| ==> ab[|a| + i] == b[i];
    if CheckWeightPositive(a).Pass? && CheckWeightPositive(b).Pass? {
      forall i | 0 <= i < |ab| ensures ab[i].weight > 0.0 {
        if i >= |a| { assert ab[i] == b[i - |a|]; }
      }
    }
  }
}
